=== FILE: README.md ===
# MCAT engagement dashboard: the data-shaping core in Dafny

This project models the core of a Streamlit dashboard, a small pure part that
sits under its charts and Google Sheets plumbing, and proves properties of it:

- **The ratio aggregator** behind every per-month chart (`RatioAggregator`).
  - It keeps the selected products' rows.
  - It group-sums a numerator and a denominator column per time bucket and year, for 2023, 2024 and 2025, then divides.
  - It left-joins the result onto the bucket domain of the *unfiltered* sheet and fills NaN with 0.
  - For the score and activity chart families, it then turns every 0 into `''`.
  - The source's three near-identical functions are one `Aggregate`. A `Naming` parameter holds the column stems, and a `ZeroPolicy` says whether zeros are kept or blanked.
- **The tidy reshaper** (`Reshape`): pandas `melt` of the per-year columns into one row per (bucket, year). The `Year` label is the text after the last `_`.
- **The KPI calculators** `calc_avg` and `calc_active_users` (`KpiCalc`).
  - Both filter by the selection.
  - The first selected row's `Parameter` picks the column pair from a four-entry table.
  - Cells go through `to_numeric(errors='coerce')`, and a non-numeric cell is skipped by the sum.
  - `calc_avg` returns numerator total over denominator total for 2024 and 2025. `calc_active_users` returns plain totals.
- **The card computation** of `build_cards_html` (`Format`, `Cards`).
  - `fmt` handles the NaN placeholder, comma grouping from magnitude 1000 up, one decimal place below, and `str(x)` for an `int64`.
  - Each card gets the year-over-year change with its arrow and class, and a definition looked up by title, with the fallback text "Somethig went wrong".
  - Cards are built in registry order. The KPI section is skipped for an empty selection.
- **The selection state machine** (`Selection`, `Sorting`).
  - The selection is seeded from the distinct non-null codes.
  - Select All (sorted codes) and Clear All each have their own 0.5 s debounce timer and rotate the widget key.
  - The multiselect callback copies the widget value into the selection.
  - The filter status line is chosen by counts.
  - `prev_month` gives the previous month.

Floats are modelled on exact reals (`Floats.Float`: finite, ±inf, NaN), with
numpy's division and IEEE subtraction rules. Integers are unbounded. Clock
reads (`time.time()`) are parameters. Spreadsheet contents are parameters:
sheets are sequences of row records, and the metric-definition sheet is a
sequence of (metric, definition) rows. The exceptions the model keeps are a
`Failure` of a `Result`: a `KeyError` on an absent column, the `IndexError`
of a definition lookup that finds no row, the `TypeError` of `sorted` on a
null code, and reading a session-state entry that was never set. Other
escaping exceptions are listed under "## Left out".

Behaviour of the code worth knowing:

- A summed column missing from a sheet raises a `KeyError`. It is not treated as "no data" (`Error.MissingColumn`).
- `build_cards_html` does not isolate failures. One entry that raises, in its calculator or in the definition lookup, aborts the whole card row (`Cards.BuildCards`).
- `calc_avg` with a `Parameter` outside its table does not fail at configuration time. It looks up the columns `_24`/`_25` (empty stems), and raises unless those exist (`KpiCalc.Stems`).
- The filter status decides "All Products Selected" by comparing counts, not sets (`Selection.StatusCountsOnly`).
- The total counts a null product code as one more distinct value. So with a null code in the sheet, the seeded selection never reads "All Products Selected" (`Selection.SeedWithNullNotAll`).

Files: `wrappers.dfy` (Option/Result), `seqs.dfy` (pandas `unique()`),
`text.dfy` (decimal text, join, split), `floats.dfy`, `tables.dfy` (rows,
cells, errors), `aggregate.dfy`, `reshape.dfy`, `kpi.dfy`, `format.dfy`,
`cards.dfy`, `sorting.dfy`, `selection.dfy`.

## Model

| member | source | states |
|---|---|---|
| RatioAggregator.Aggregate | helper_function.py:212-254 | Fails with a missing-column error exactly when the bucket column is not the sheet's or a summed per-year column is absent; otherwise one row per distinct bucket of the unfiltered sheet, in `unique()` order |
| RatioAggregator.GetReqFilteredDf | helper_function.py:212-223 | Succeeds exactly when `Expiry_month` is the sheet's bucket column and every year's `kbs_enrollment_id_{year}` and `{agg_col}_{year}` columns exist; then it keys on `Expiry_month`, holds `{param_col}_{year}` for each year, and no cell is blank |
| RatioAggregator.GetReqFilteredDfScores | helper_function.py:226-239 | Succeeds exactly when `agg_month` names the sheet's bucket column and every year's `{prefix}_score_kbs_enrollment_id_{year}` and `{prefix}_{agg_col}_{year}` columns exist; then it keys on `agg_month`, holds `{prefix}_{param_col}_{year}` for each year, and no cell is 0 |
| RatioAggregator.GetReqFilteredDfActQuesPt | helper_function.py:241-254 | Succeeds exactly when `agg_month` names the sheet's bucket column and every year's `{param_col}_kbs_enrollment_id_{year}` and `{param_col}_{agg_col}_{year}` columns exist; then it keys on `agg_month`, holds `{param_col}_{year}` for each year, and no cell is 0 |
| RatioAggregator.AggregateDomain | helper_function.py:213-214 | The output buckets are pairwise distinct, cover every bucket of the unfiltered sheet, come only from it, and appear in first-appearance order |
| RatioAggregator.DomainIndependentOfSelection | helper_function.py:214 | Any two selections give the same bucket rows in the same order (stable chart axes) |
| RatioAggregator.AggregateRatio | helper_function.py:215-222 | Each ratio cell is the selected rows' numerator total over their denominator total for that bucket and year (±inf for a nonzero total over 0), and 0 or blank for a bucket with no selected row or 0/0 |
| RatioAggregator.AggregateNumerator | helper_function.py:216-222 | Each numerator cell is the selected rows' total for that bucket and year, the fill/blank rule applied, when the ratio column does not overwrite it |
| RatioAggregator.AggregateDenominator | helper_function.py:216-222 | Each denominator cell is the selected rows' enrollment total for that bucket and year, the fill/blank rule applied |
| RatioAggregator.EmptySelectionZero | helper_function.py:213-222 | An empty selection does not raise and yields 0 in every cell (blank under the blanking variants) |
| RatioAggregator.SentinelPolicy | helper_function.py:222-252 | In every output row no cell is NaN; the blanking variants leave no 0 and the plain variant no blank |
| RatioAggregator.Settle | helper_function.py:251-252 | `fillna(0)` then optional `replace(0,'')`: NaN and genuine zeros become 0 or blank, infinities and nonzero values pass unchanged |
| RatioAggregator.GroupSumsSpec | helper_function.py:216-219 | The one-pass group sums hold, for each bucket present, the column totals over the rows of that bucket, and no entry for an absent bucket |
| RatioAggregator.SelectedSums | helper_function.py:213-219 | Group-summing the filtered rows equals summing the selected rows of the unfiltered sheet |
| RatioAggregator.StemsToColumns | helper_function.py:231-234 | Different stems give different `{stem}_{year}` columns, so a variant's three columns of a year never collide unless its stems do |
| Reshape.Melt | helper_function.py:101-106 | Succeeds exactly when the id column is the frame's key and every value column exists, otherwise raises a missing-column error |
| Reshape.MetricChartData | helper_function.py:95-109 | Succeeds exactly when the id column is the frame's key and all three `{metric_prefix}_{year}` columns exist, and then gives three long rows per frame row |
| Reshape.MetricChartShape | helper_function.py:98-109 | N aggregated rows become 3N long rows in three blocks, one per year in column order; row i of each block is bucket i, labelled with the year's text and holding that bucket's cell of that year |
| Reshape.MeltThree | helper_function.py:101-106 | Melting three value columns stacks one block per column, each block listing every input row in order |
| Reshape.MeltRowsFrom | helper_function.py:101-106 | Every long row comes from some input row and some value column |
| Reshape.MetricChartLabels | helper_function.py:109 | Every long row's bucket is one of the frame's buckets and its year label is "2023", "2024" or "2025" |
| Reshape.YearLabel | helper_function.py:109 | The text after the last `_` of `{prefix}_{year}` is the year itself, whatever `_` the prefix holds |
| Reshape.ScoreGainIsMetricChart | app.py:269-274 | The score-gain chart's literal column list makes its melt the same as the generic chart reshape on stem `Score_gain` |
| Reshape.ScoreGainData | app.py:269-274 | Succeeds exactly when the frame is keyed on `Expiry_month` and holds `Score_gain_2023`, `Score_gain_2024` and `Score_gain_2025`, and then gives three long rows per frame row |
| Reshape.ChartPipeline | app.py:269-274 | Aggregating and then reshaping on the ratio stem never fails, and the chart row of bucket i and year j holds the selected rows' numerator total over denominator total for that bucket and year (0 or blank for a bucket with no selected row) |
| KpiCalc.CalcAvg | helper_function.py:172-197 | Returns no result exactly when no row is selected; a failure is always a column missing from the sheet |
| KpiCalc.CalcAvgValues | helper_function.py:173-197 | The title is the first selected row's `Parameter`, and each year's value is the numerator total over the denominator total of the selected rows, using that title's column pair |
| KpiCalc.CalcAvgFails | helper_function.py:191-195 | With a row selected, it raises exactly when one of the four `_24`/`_25` columns of the title's pair is absent |
| KpiCalc.StemsTable | helper_function.py:176-189 | Every known `Parameter` divides by `total_eid`, "Avg Activity / User" and "Avg Tests / User" share a numerator, and any other label gets empty stems |
| KpiCalc.Stems | helper_function.py:176-189 | The denominator stem is `total_eid` exactly for the four known `Parameter` labels, and the numerator stem is empty exactly when the denominator stem is |
| KpiCalc.CalcActiveUsers | helper_function.py:200-209 | Returns no result exactly when no row is selected; a failure is always a missing column |
| KpiCalc.CalcActiveUsersFails | helper_function.py:200-207 | With a row selected, it raises exactly when `total_active_user_24` or `total_active_user_25` is absent, so it succeeds whenever both exist |
| KpiCalc.CalcActiveUsersValues | helper_function.py:201-209 | The values are the plain totals of `total_active_user_24/25` over the selected rows, with no division; each is an `int64` exactly when every selected cell is an integer |
| KpiCalc.ColumnTotal | helper_function.py:204-207 | A column sum is an `int64` exactly when every cell parses as an integer, and it equals the coerced total either way |
| KpiCalc.NonNumericCountsZero | helper_function.py:191-192 | Making a cell non-numeric removes exactly its value from the total, the same as writing 0 there |
| KpiCalc.SelectedRowsSum | helper_function.py:173-195 | Summing the filtered rows equals summing the selected rows of the unfiltered sheet |
| Format.Fmt | helper_function.py:277-283 | Never empty; returns the placeholder dash exactly for NaN, and "inf" or "-inf" for the two infinities, which `,.0f` prints (the text shape of finite values and `int64`s is stated by the `Fmt*Shape` lemmas) |
| Format.RoundHalfEven | helper_function.py:282-283 | Rounds to a whole number within 1/2 of the value, ties to even |
| Format.GroupThousandsDigits | helper_function.py:282 | Removing the commas of a grouped number gives its plain decimal text |
| Format.GroupThousandsShape | helper_function.py:282 | The grouped text is digits and commas, with a comma exactly at every fourth place counted from the right and nowhere else; the leading group has one to three digits and no leading zero unless the text is "0" |
| Format.FmtGroupedShape | helper_function.py:281-282 | From magnitude 1000 up the text has no decimal point, starts with `-` exactly for a negative value, and after the sign is grouped text (leading group of one to three digits, no leading zero) whose digits are the value rounded half-to-even |
| Format.FmtOneDecimalShape | helper_function.py:283 | Below magnitude 1000 a float's text has no comma, starts with `-` exactly for a negative value, and after the sign is digits without a leading zero, a point and one digit |
| Format.FmtIntShape | helper_function.py:281-283 | An `int64`'s text has no decimal point, starts with `-` exactly for a negative value, and after the sign is, from magnitude 1000 up, grouped text whose digits are the magnitude, and below 1000 exactly `str` of the magnitude (no leading zero) |
| Format.FmtFiniteReadsBack | helper_function.py:281-283 | What `fmt` writes for a finite float reads back within 1/2 from magnitude 1000 up, and within 1/20 below |
| Format.FmtIntReadsBack | helper_function.py:281-283 | What `fmt` writes for an `int64` (grouped, or `str(x)`) reads back exactly |
| Format.FmtExampleGrouped | helper_function.py:281-282 | 12500.0 shows as "12,500" |
| Format.FmtExampleDecimal | helper_function.py:283 | 4.567 shows as "4.6" |
| Format.FmtIntExample | helper_function.py:283 | The `int64`s 842 and -7 show as "842" and "-7" |
| Format.GroupedExamples | helper_function.py:282 | "1,000" and "1,234,567" are grouped text; "1000", "1234,567" and "01,000" are not |
| Cards.FirstDefinition | helper_function.py:286 | Finds nothing exactly when no row carries the title; otherwise the definition of the first such row |
| Cards.Definition | helper_function.py:284-296 | An unknown title gets "Somethig went wrong"; a known title gets its first matching definition and fails exactly when the sheet has no row for it |
| Cards.DefinitionLookup | helper_function.py:284-296 | With a first matching row at `i`, the lookup returns that row's text for a known title and the fallback for any other |
| Cards.MakeCard | helper_function.py:266-311 | A card exists exactly when the definition lookup succeeds; its arrow is up exactly when the change is ≥ 0 and its class is "positive" exactly with the up arrow |
| Cards.ArrowMeaning | helper_function.py:268-274 | The arrow points up exactly when 2025 is not below 2024, except when both are the same infinity (the change is NaN, so the arrow points down) |
| Cards.BuildCards | helper_function.py:256-319 | Never more cards than entries; a failure is a missing column or a missing definition |
| Cards.BuildCardsSucceeds | helper_function.py:259-316 | The build succeeds exactly when every entry runs without raising |
| Cards.BuildCardsCount | helper_function.py:259-316 | When no entry raises, the build succeeds with exactly one card per entry whose calculator returned a result |
| Cards.BuildCardsAt | helper_function.py:259-319 | When no entry raises, the entry at index i that yields a result gives the card placed right after the cards of the yielding entries before it (registry order) |
| Cards.EmptySelectionNoCards | helper_function.py:172-175 | With no product selected every calculator returns nothing, so no card is built and nothing raises |
| Cards.KpiSection | app.py:245-252 | The cards are replaced by the warning exactly when the selection is empty; otherwise both rows are built, and the section fails exactly when a row fails |
| Cards.Registry | app.py:229-242 | Five entries, with the active-users calculator third and `calc_avg` for the rest |
| Sorting.Sort | app.py:132 | The result is a permutation of the input (multiset equality), sorted in Python's string order |
| Sorting.SortDistinct | app.py:132 | Sorting distinct codes gives a strictly increasing list of the same length |
| Sorting.LexLessTotal | app.py:132 | Any two different strings are ordered one way or the other |
| Selection.Seed | app.py:115-118 | An existing selection is kept; otherwise the selection becomes the distinct non-null codes, with no duplicates, and nothing else changes |
| Selection.SeedIdempotent | app.py:115-118 | Seeding twice is seeding once |
| Selection.SeedOrder | app.py:117 | The seeded codes appear in the order of their first row |
| Selection.AllProducts | app.py:132 | Fails exactly when the column holds a null (unorderable); otherwise strictly sorted, holding exactly the column's codes |
| Selection.InitTimers | app.py:137-140 | Both timers are set, existing timer values are kept, and nothing else changes |
| Selection.PressSelectAll | app.py:143-156 | Disabled within 0.5 s of its own last click (nothing but timer setup changes); otherwise selects the sorted codes, installs a select-all key and records the click; never touches Clear All's timer |
| Selection.PressClearAll | app.py:143-165 | Disabled within 0.5 s of its own last click; otherwise empties the selection, installs a clear-all key and records the click; never touches Select All's timer |
| Selection.DebouncedRepeat | app.py:143-156 | A second Select All within 0.5 s of an effective one leaves the session exactly as the first left it |
| Selection.SelectAllThenClearAll | app.py:137-165 | Clear All right after Select All empties the selection whenever Clear All's own window has passed |
| Selection.ClearAllThenSelectAll | app.py:137-165 | Select All right after Clear All selects every code, sorted, whenever Select All's own window has passed |
| Selection.KeysRotate | app.py:154-169 | Select-all, clear-all and initial widget keys never coincide, and different click stamps give different keys |
| Selection.EnsureKey | app.py:168-169 | Sets the initial key only when none is set |
| Selection.OnMultiselectChange | app.py:172-179 | Raises exactly when no key is set; copies the value stored under the current key into the selection, or changes nothing when there is no such value |
| Selection.WidgetChanged | app.py:172-189 | Stores the new widget value under its key, then runs the callback |
| Selection.WidgetChangeEffect | app.py:172-189 | A change of the current widget replaces the selection with the chosen codes; a change under a stale key leaves it unchanged when the current key holds no value |
| Selection.CallbackAfterEnsureKey | app.py:168-179 | Once the panel has set its key, the callback never raises |
| Selection.FilterStatus | app.py:196-213 | "All Products Selected" (green) exactly when the count equals the total; "No Products Selected" (orange) exactly when the count is 0 and the total is not |
| Selection.TotalCount | app.py:197 | The total is the number of distinct product codes in the column, a null code counting as one |
| Selection.StatusNamesFew | app.py:208-212 | With one to three codes selected (not all), every selected code appears in the status text, which is blue |
| Selection.StatusSummarizesMany | app.py:210-212 | With more than three (not all), the text names the first two codes and ends with "{count-2} more", whose number reads back as count-2 |
| Selection.StatusCountsOnly | app.py:196-201 | A selection of the right length but missing a code still reads "All Products Selected" |
| Selection.SeedWithNullNotAll | app.py:115-118 | A seeded selection of a column with a null code is shorter than the total, so it never reads "All Products Selected" |
| Selection.PrevMonth | app.py:9 | The previous month, with January going back to December: one month forward again is the given month |
| Selection.PrevMonthInverse | app.py:9-10 | January's previous month is December (by name too), and every other month's is month - 1 |
| Seqs.Unique | helper_function.py:214 | No duplicates, and holds exactly the input's values |
| Seqs.UniqueFirstAppearance | helper_function.py:214 | The distinct values are listed in the order of their first appearance |
| Text.LastSegment | helper_function.py:109 | A suffix of the text with no separator in it, preceded by a separator unless it is the whole text |
| Floats.Divide | helper_function.py:220 | Finite exactly for a nonzero denominator (and then times the denominator gives the numerator); NaN for 0/0; ±inf by the numerator's sign over 0 |
| Floats.Sub | helper_function.py:269 | Finite exactly for two finite operands, and then the difference; NaN on a NaN operand or on inf − inf of equal signs; +inf exactly for +inf minus a non-NaN other than +inf, or for a non-NaN other than −inf minus −inf, and −inf in the mirrored cases |

## Left out

- Google Sheets reads and writes (`read_from_gsheets*`, `load_to_gsheets*`, `load_data`, and the definition sheet read at import time). These are network I/O. The sheets are parameters.
- Plotly figures, Streamlit rendering, HTML and CSS. These are UI only. `build_cards_html` is modelled as the list of card values it would render; the HTML text and its newline join are not modelled.
- Streamlit caching, `compatible_rerun`, the version check, the Refresh and Filters toggle buttons, and widget lifecycle. This includes initialising a new widget key's value from `default`, and dropping values of widgets no longer shown. These are framework behaviour. The model only covers the state transitions the code writes, with clock reads as parameters.
- The positional `iloc` slicing of the KPI sheet layouts and the registry's column ranges. These are layout configuration.
- Binary float64 rounding. Values are exact reals, so `.0f`/`.1f` formatting rounds the exact value half-to-even, and sums and quotients are exact.
- Parsing of cell text by `to_numeric`. Cells arrive already classified as integer, float or non-numeric.
- Blank or text cells in the aggregator's summed columns. Sheets are read with `get_as_df()` (helper_function.py:22), which leaves a blank cell as `''`, and the aggregator sums these columns without `to_numeric` (helper_function.py:216-219, 229-232, 244-247). A column holding such a cell is an object column, whose group sum raises a `TypeError` or joins strings. In the model an aggregator cell is a number or absent, and an absent cell counts as NaN, which the sum skips.
- The grouping column of the scores and activity variants. `agg_month` could name any present column, and pandas would group by it. In the model a sheet has one bucket column, and naming another column is a missing-column failure. The dashboard always passes the sheet's own month column (`Expiry_month` or `Activity_month`).
- Reshape.Melt: pandas `melt(id_vars=...)` accepts any present column as the id column. In the model a frame has one key column, and melting on another column is a missing-column failure. The dashboard always melts on the frame's own month column (helper_function.py:102-103, app.py:270).
- Null or non-string bucket labels and product codes in the aggregator and the KPI sheets. pandas `groupby` drops a NaN bucket; that is not modelled.
- A `Parameter` column missing from a KPI sheet, and a definition sheet missing its columns. Rows always carry those fields.
- Selection.AllProducts: a column whose only value is null sorts without error in the source (a one-element list is never compared). The model reports it as unorderable like every other column holding a null.
- Cards.MakeCard: the `except` branch that sets the change to 0.0 cannot be reached. `float()` of a numpy scalar never raises, so the branch is not modelled.
- Format.Fmt: the source text stores the placeholder as the mis-encoded bytes of an em dash. The model uses the em dash "—" itself.
- `prev_prev_month` and the charts after the score-gain chart, apart from the shared `create_metric_chart` melt. They are outside the modelled core.

=== FILE: aggregate.dfy ===
/** The ratio aggregator behind every per-month chart: keep the selected
    products' rows, group-sum a numerator and a denominator column per time
    bucket and year, divide, left-join onto the bucket domain of the
    unfiltered sheet, fill NaN with 0, and (for two of the three chart
    families) blank out every 0. The three source variants differ only in how
    they name columns, so they are one function with a `Naming` parameter. */
module RatioAggregator {

  import opened Wrappers
  import opened Seqs
  import opened Text
  import opened Floats
  import opened Tables

  /** The years every chart covers. */
  const Years: seq<nat> := [2023, 2024, 2025]

  /** A per-year column name: `f'{stem}_{year}'`. */
  function YearColumn(stem: string, y: nat): string {
    stem + "_" + NatToString(y)
  }

  /** The column-name stems of one chart family: the summed denominator
      (an enrollment count), the summed numerator, and the ratio written back. */
  datatype Naming = Naming(denominator: string, numerator: string, ratio: string)

  /** What becomes of a 0 after the NaN fill: kept (plain ratio charts) or
      replaced by the empty string (score and activity charts). */
  datatype ZeroPolicy = KeepZeros | BlankZeros

  /** A cell of the aggregated table: a float, or the blank `''`. */
  datatype OutCell = Val(v: Float) | Blank

  /** One row of the aggregated table: a bucket label and its cells. */
  datatype AggRow = AggRow(bucket: string, cells: map<string, OutCell>)

  /** The aggregated table: the bucket column's name, all column names, rows. */
  datatype Frame = Frame(keyColumn: string, columns: set<string>, rows: seq<AggRow>)

  /** The bucket column of a sheet, row by row. */
  function Buckets(rows: seq<MetricRow>): (r: seq<string>)
    ensures |r| == |rows|
    ensures forall i :: 0 <= i < |rows| ==> r[i] == rows[i].bucket
  {
    seq(|rows|, i requires 0 <= i < |rows| => rows[i].bucket)
  }

  /** `df[df['product_code'].isin(sel)]`: the rows whose product is selected,
      in their original order. */
  function Selected(rows: seq<MetricRow>, sel: seq<string>): (r: seq<MetricRow>)
    ensures |r| <= |rows|
    ensures forall i :: 0 <= i < |r| ==> r[i] in rows && r[i].product in sel
  {
    if |rows| == 0 then []
    else
      var last := rows[|rows| - 1];
      Selected(rows[..|rows| - 1], sel) + (if last.product in sel then [last] else [])
  }

  /** Denominator and numerator totals of one group. */
  datatype Sums = Sums(den: real, num: real)

  /** `groupby(bucket).agg({den: 'sum', num: 'sum'})`, one pass over the rows
      in order; a bucket is a key exactly when some row carries it. */
  function GroupSums(rows: seq<MetricRow>, den: string, num: string): map<string, Sums> {
    if |rows| == 0 then map[]
    else
      var g := GroupSums(rows[..|rows| - 1], den, num);
      var r := rows[|rows| - 1];
      var prev := if r.bucket in g then g[r.bucket] else Sums(0.0, 0.0);
      g[r.bucket := Sums(prev.den + ValueAt(r, den), prev.num + ValueAt(r, num))]
  }

  /** Reference sum: column `c` over the rows of bucket `b`. */
  function BucketSum(rows: seq<MetricRow>, b: string, c: string): real {
    if |rows| == 0 then 0.0
    else
      var r := rows[|rows| - 1];
      BucketSum(rows[..|rows| - 1], b, c) + (if r.bucket == b then ValueAt(r, c) else 0.0)
  }

  /** Reference sum over the UNFILTERED sheet: column `c` over the rows that
      are both selected and in bucket `b`. */
  function SelectedBucketSum(rows: seq<MetricRow>, sel: seq<string>, b: string, c: string): real {
    if |rows| == 0 then 0.0
    else
      var r := rows[|rows| - 1];
      SelectedBucketSum(rows[..|rows| - 1], sel, b, c)
        + (if r.product in sel && r.bucket == b then ValueAt(r, c) else 0.0)
  }

  /** Some selected row lies in bucket `b`. */
  ghost predicate HasSelected(rows: seq<MetricRow>, sel: seq<string>, b: string) {
    exists i :: 0 <= i < |rows| && rows[i].product in sel && rows[i].bucket == b
  }

  /** `fillna(0)`, then under `BlankZeros` `replace(0, '')`. NaN never
      survives, nonzero values and infinities are left alone, and 0 is kept
      or blanked by the policy. */
  function Settle(v: Float, policy: ZeroPolicy): (r: OutCell)
    ensures r != Val(NaN)
    ensures v.NaN? || v == Finite(0.0) ==> (if policy.KeepZeros? then r == Val(Finite(0.0)) else r == Blank)
    ensures !v.NaN? && v != Finite(0.0) ==> r == Val(v)
  {
    var filled := if v.NaN? then Finite(0.0) else v;
    if policy.BlankZeros? && filled == Finite(0.0) then Blank else Val(filled)
  }

  /** The denominator, numerator and ratio cells of bucket `b` for year `y`.
      A bucket missing from the groups is NaN in all three after the left
      merge; the ratio column is written after the two sums. */
  function YearCells(filtered: seq<MetricRow>, b: string, naming: Naming, y: nat, policy: ZeroPolicy)
    : (m: map<string, OutCell>)
    ensures m.Keys == {YearColumn(naming.denominator, y), YearColumn(naming.numerator, y), YearColumn(naming.ratio, y)}
  {
    var g := GroupSums(filtered, YearColumn(naming.denominator, y), YearColumn(naming.numerator, y));
    var d := if b in g then Finite(g[b].den) else NaN;
    var n := if b in g then Finite(g[b].num) else NaN;
    var q := if b in g then Divide(g[b].num, g[b].den) else NaN;
    map[][YearColumn(naming.denominator, y) := Settle(d, policy)]
         [YearColumn(naming.numerator, y) := Settle(n, policy)]
         [YearColumn(naming.ratio, y) := Settle(q, policy)]
  }

  /** All cells of bucket `b`, merging one year after another. */
  function RowCells(filtered: seq<MetricRow>, b: string, naming: Naming, ys: seq<nat>, policy: ZeroPolicy)
    : map<string, OutCell>
  {
    if |ys| == 0 then map[]
    else RowCells(filtered, b, naming, ys[..|ys| - 1], policy)
         + YearCells(filtered, b, naming, ys[|ys| - 1], policy)
  }

  /** The columns read, in the order pandas reads them: per year, the
      denominator then the numerator. */
  function RequiredColumns(naming: Naming, ys: seq<nat>): (r: seq<string>)
    ensures forall y :: y in ys ==> YearColumn(naming.denominator, y) in r && YearColumn(naming.numerator, y) in r
  {
    if |ys| == 0 then []
    else
      var y := ys[|ys| - 1];
      RequiredColumns(naming, ys[..|ys| - 1]) + [YearColumn(naming.denominator, y), YearColumn(naming.numerator, y)]
  }

  /** Every summed column of every year is a column of the sheet. */
  predicate ColumnsPresent(t: MetricTable, naming: Naming) {
    forall y :: y in Years ==> YearColumn(naming.denominator, y) in t.columns && YearColumn(naming.numerator, y) in t.columns
  }

  /** The first-missing search over the summed columns finds nothing exactly
      when every summed column is present. */
  lemma RequiredColumnsFound(t: MetricTable, naming: Naming)
    ensures FirstMissing(t.columns, RequiredColumns(naming, Years)).None? <==> ColumnsPresent(t, naming)
  {
    if ColumnsPresent(t, naming) {
      RequiredColumnsWithin(naming, Years, t.columns);
    }
  }

  lemma {:induction false} RequiredColumnsWithin(naming: Naming, ys: seq<nat>, columns: set<string>)
    requires forall y :: y in ys ==> YearColumn(naming.denominator, y) in columns && YearColumn(naming.numerator, y) in columns
    ensures forall i :: 0 <= i < |RequiredColumns(naming, ys)| ==> RequiredColumns(naming, ys)[i] in columns
  {
    if |ys| > 0 {
      RequiredColumnsWithin(naming, ys[..|ys| - 1], columns);
      assert ys[|ys| - 1] in ys;
    }
  }

  /** The columns written for the given years. */
  function OutputColumns(naming: Naming, ys: seq<nat>): set<string> {
    set y, s | y in ys && s in {naming.denominator, naming.numerator, naming.ratio} :: YearColumn(s, y)
  }

  /** Every year's ratio column is an output column. */
  lemma RatioColumnsOutput(naming: Naming)
    ensures forall y :: y in Years ==> YearColumn(naming.ratio, y) in OutputColumns(naming, Years)
  {
    forall y | y in Years
      ensures YearColumn(naming.ratio, y) in OutputColumns(naming, Years)
    {
      assert naming.ratio in {naming.denominator, naming.numerator, naming.ratio};
    }
  }

  /** The left merge onto the bucket domain: one row per domain entry. */
  function MergeRows(domain: seq<string>, filtered: seq<MetricRow>, naming: Naming, policy: ZeroPolicy)
    : (rows: seq<AggRow>)
    ensures |rows| == |domain|
    ensures forall i :: 0 <= i < |domain| ==> rows[i].bucket == domain[i]
  {
    seq(|domain|, i requires 0 <= i < |domain| => AggRow(domain[i], RowCells(filtered, domain[i], naming, Years, policy)))
  }

  /** The generic aggregator. It fails (pandas `KeyError`) when the bucket
      column or a summed column is absent; otherwise it returns one row per
      distinct bucket of the unfiltered sheet, in first-appearance order,
      whatever the selection. */
  function Aggregate(t: MetricTable, sel: seq<string>, keyColumn: string, naming: Naming, policy: ZeroPolicy)
    : (r: Result<Frame, Error>)
    ensures r.Failure? <==> keyColumn != t.bucketColumn || !ColumnsPresent(t, naming)
    ensures r.Failure? ==> r.error.MissingColumn?
                           && ((r.error.name == keyColumn && keyColumn != t.bucketColumn) || r.error.name !in t.columns)
    ensures r.Success? ==> |r.value.rows| == |Unique(Buckets(t.rows))|
    ensures r.Success? ==> forall i :: 0 <= i < |r.value.rows| ==> r.value.rows[i].bucket == Unique(Buckets(t.rows))[i]
    ensures r.Success? ==> r.value.keyColumn == keyColumn
                           && forall y :: y in Years ==> YearColumn(naming.ratio, y) in r.value.columns
  {
    if keyColumn != t.bucketColumn then Failure(MissingColumn(keyColumn))
    else
      RequiredColumnsFound(t, naming);
      RatioColumnsOutput(naming);
      match FirstMissing(t.columns, RequiredColumns(naming, Years))
      case Some(c) => Failure(MissingColumn(c))
      case None =>
        Success(Frame(keyColumn, {keyColumn} + OutputColumns(naming, Years),
                      MergeRows(Unique(Buckets(t.rows)), Selected(t.rows, sel), naming, policy)))
  }

  // ---------------------------------------------------------------------
  // The three chart families of the source.

  /** `get_req_filtered_df`: bucket column `Expiry_month`, columns
      `kbs_enrollment_id_{yr}` and `{agg_col}_{yr}`, ratio `{param_col}_{yr}`;
      zeros kept. */
  function PlainNaming(paramCol: string, aggCol: string): Naming {
    Naming("kbs_enrollment_id", aggCol, paramCol)
  }

  function GetReqFilteredDf(t: MetricTable, sel: seq<string>, paramCol: string, aggCol: string)
    : (r: Result<Frame, Error>)
    ensures r.Success? <==>
              && t.bucketColumn == "Expiry_month"
              && forall y :: y in Years ==>
                   YearColumn("kbs_enrollment_id", y) in t.columns && YearColumn(aggCol, y) in t.columns
    ensures r.Success? ==> r.value.keyColumn == "Expiry_month"
                           && forall y :: y in Years ==> YearColumn(paramCol, y) in r.value.columns
    ensures r.Success? ==> forall i, k :: 0 <= i < |r.value.rows| && k in r.value.rows[i].cells ==>
                             r.value.rows[i].cells[k] != Blank
  {
    var naming := PlainNaming(paramCol, aggCol);
    if "Expiry_month" == t.bucketColumn && ColumnsPresent(t, naming) then
      SentinelPolicy(t, sel, "Expiry_month", naming, KeepZeros);
      Aggregate(t, sel, "Expiry_month", naming, KeepZeros)
    else
      Aggregate(t, sel, "Expiry_month", naming, KeepZeros)
  }

  /** `get_req_filtered_df_scores`: columns `{prefix}_score_kbs_enrollment_id_{yr}`
      and `{prefix}_{agg_col}_{yr}`, ratio `{prefix}_{param_col}_{yr}`; zeros blanked. */
  function ScoresNaming(paramCol: string, aggCol: string, prefix: string): Naming {
    Naming(prefix + "_score_kbs_enrollment_id", prefix + "_" + aggCol, prefix + "_" + paramCol)
  }

  function GetReqFilteredDfScores(t: MetricTable, sel: seq<string>, aggMonth: string, paramCol: string,
                                  aggCol: string, prefix: string): (r: Result<Frame, Error>)
    ensures r.Success? <==>
              && t.bucketColumn == aggMonth
              && forall y :: y in Years ==>
                   && YearColumn(prefix + "_score_kbs_enrollment_id", y) in t.columns
                   && YearColumn(prefix + "_" + aggCol, y) in t.columns
    ensures r.Success? ==> r.value.keyColumn == aggMonth
                           && forall y :: y in Years ==> YearColumn(prefix + "_" + paramCol, y) in r.value.columns
    ensures r.Success? ==> forall i, k :: 0 <= i < |r.value.rows| && k in r.value.rows[i].cells ==>
                             r.value.rows[i].cells[k] != Val(Finite(0.0))
  {
    var naming := ScoresNaming(paramCol, aggCol, prefix);
    if aggMonth == t.bucketColumn && ColumnsPresent(t, naming) then
      SentinelPolicy(t, sel, aggMonth, naming, BlankZeros);
      Aggregate(t, sel, aggMonth, naming, BlankZeros)
    else
      Aggregate(t, sel, aggMonth, naming, BlankZeros)
  }

  /** `get_req_filtered_df_act_ques_pt`: columns `{param_col}_kbs_enrollment_id_{yr}`
      and `{param_col}_{agg_col}_{yr}`, ratio `{param_col}_{yr}`; zeros blanked. */
  function ActQuesPtNaming(paramCol: string, aggCol: string): Naming {
    Naming(paramCol + "_kbs_enrollment_id", paramCol + "_" + aggCol, paramCol)
  }

  function GetReqFilteredDfActQuesPt(t: MetricTable, sel: seq<string>, aggMonth: string, paramCol: string,
                                     aggCol: string): (r: Result<Frame, Error>)
    ensures r.Success? <==>
              && t.bucketColumn == aggMonth
              && forall y :: y in Years ==>
                   && YearColumn(paramCol + "_kbs_enrollment_id", y) in t.columns
                   && YearColumn(paramCol + "_" + aggCol, y) in t.columns
    ensures r.Success? ==> r.value.keyColumn == aggMonth
                           && forall y :: y in Years ==> YearColumn(paramCol, y) in r.value.columns
    ensures r.Success? ==> forall i, k :: 0 <= i < |r.value.rows| && k in r.value.rows[i].cells ==>
                             r.value.rows[i].cells[k] != Val(Finite(0.0))
  {
    var naming := ActQuesPtNaming(paramCol, aggCol);
    if aggMonth == t.bucketColumn && ColumnsPresent(t, naming) then
      SentinelPolicy(t, sel, aggMonth, naming, BlankZeros);
      Aggregate(t, sel, aggMonth, naming, BlankZeros)
    else
      Aggregate(t, sel, aggMonth, naming, BlankZeros)
  }

  // ---------------------------------------------------------------------
  // Properties.

  /** A bucket that no row carries sums to 0. */
  lemma {:induction false} BucketSumAbsent(rows: seq<MetricRow>, b: string, c: string)
    requires b !in Buckets(rows)
    ensures BucketSum(rows, b, c) == 0.0
  {
    if |rows| > 0 {
      assert Buckets(rows[..|rows| - 1]) == Buckets(rows)[..|rows| - 1];
      BucketSumAbsent(rows[..|rows| - 1], b, c);
      assert rows[|rows| - 1].bucket == Buckets(rows)[|rows| - 1];
    }
  }

  /** The one-pass group-by holds exactly the buckets the rows carry, each
      with the per-bucket totals of both columns. */
  lemma {:induction false} GroupSumsSpec(rows: seq<MetricRow>, den: string, num: string, b: string)
    ensures b in GroupSums(rows, den, num) <==> b in Buckets(rows)
    ensures b in GroupSums(rows, den, num) ==>
              GroupSums(rows, den, num)[b] == Sums(BucketSum(rows, b, den), BucketSum(rows, b, num))
  {
    if |rows| > 0 {
      var p := rows[..|rows| - 1];
      var r := rows[|rows| - 1];
      GroupSumsSpec(p, den, num, b);
      assert Buckets(p) == Buckets(rows)[..|rows| - 1];
      assert Buckets(rows) == Buckets(p) + [r.bucket];
      if r.bucket == b && b !in Buckets(p) {
        BucketSumAbsent(p, b, den);
        BucketSumAbsent(p, b, num);
      }
    }
  }

  /** Filtering then summing a bucket gives the sum, over the UNFILTERED
      sheet, of the selected rows in that bucket: unselected rows contribute
      nothing. */
  lemma {:induction false} SelectedSums(rows: seq<MetricRow>, sel: seq<string>, b: string, c: string)
    ensures BucketSum(Selected(rows, sel), b, c) == SelectedBucketSum(rows, sel, b, c)
  {
    if |rows| > 0 {
      var p := rows[..|rows| - 1];
      var r := rows[|rows| - 1];
      SelectedSums(p, sel, b, c);
      var fp := Selected(p, sel);
      if r.product in sel {
        assert Selected(rows, sel) == fp + [r];
        assert (fp + [r])[..|fp|] == fp;
      } else {
        assert Selected(rows, sel) == fp;
      }
    }
  }

  /** A bucket survives the filter exactly when some selected row carries it. */
  lemma {:induction false} SelectedBuckets(rows: seq<MetricRow>, sel: seq<string>, b: string)
    ensures b in Buckets(Selected(rows, sel)) <==> HasSelected(rows, sel, b)
  {
    if |rows| > 0 {
      var p := rows[..|rows| - 1];
      var r := rows[|rows| - 1];
      SelectedBuckets(p, sel, b);
      var fp := Selected(p, sel);
      if r.product in sel {
        assert Selected(rows, sel) == fp + [r];
        assert Buckets(fp + [r]) == Buckets(fp) + [r.bucket];
      } else {
        assert Selected(rows, sel) == fp;
      }
      if HasSelected(rows, sel, b) {
        var i :| 0 <= i < |rows| && rows[i].product in sel && rows[i].bucket == b;
        if i < |rows| - 1 {
          assert p[i] == rows[i];
        }
      }
      if HasSelected(p, sel, b) {
        var i :| 0 <= i < |p| && p[i].product in sel && p[i].bucket == b;
        assert rows[i] == p[i];
      }
    }
  }

  /** Per-year column names of two different four-digit years never meet,
      whatever their stems: each ends in its own year. */
  lemma YearColumnsDistinct(s1: string, s2: string, y1: nat, y2: nat)
    requires 1000 <= y1 <= 9999 && 1000 <= y2 <= 9999 && y1 != y2
    ensures YearColumn(s1, y1) != YearColumn(s2, y2)
  {
    var a := YearColumn(s1, y1);
    var b := YearColumn(s2, y2);
    FourDigits(y1);
    FourDigits(y2);
    ParseNatToString(y1);
    ParseNatToString(y2);
    assert a[|a| - 4..] == NatToString(y1);
    assert b[|b| - 4..] == NatToString(y2);
  }

  /** A cell written for year `ys[j]` survives the merges of the other years. */
  lemma {:induction false} RowCellsAt(filtered: seq<MetricRow>, b: string, naming: Naming, ys: seq<nat>,
                                      policy: ZeroPolicy, j: nat, key: string)
    requires forall k :: 0 <= k < |ys| ==> 1000 <= ys[k] <= 9999
    requires NoDup(ys)
    requires j < |ys|
    requires key in YearCells(filtered, b, naming, ys[j], policy)
    ensures key in RowCells(filtered, b, naming, ys, policy)
    ensures RowCells(filtered, b, naming, ys, policy)[key] == YearCells(filtered, b, naming, ys[j], policy)[key]
  {
    var last := |ys| - 1;
    var p := ys[..last];
    var right := YearCells(filtered, b, naming, ys[last], policy);
    assert RowCells(filtered, b, naming, ys, policy) == RowCells(filtered, b, naming, p, policy) + right;
    if j < last {
      assert p[j] == ys[j];
      RowCellsAt(filtered, b, naming, p, policy, j, key);
      assert ys[j] != ys[last];
      OtherYearKey(naming, ys[j], ys[last], key);
      MergeKeepsLeft(RowCells(filtered, b, naming, p, policy), right, key);
    }
  }

  /** A key only the left map holds keeps its left value in the merge. */
  lemma MergeKeepsLeft<K, V>(left: map<K, V>, right: map<K, V>, key: K)
    requires key in left && key !in right
    ensures key in left + right && (left + right)[key] == left[key]
  {
  }

  /** A cell key of year `y` is no cell key of another year `z`. */
  lemma OtherYearKey(naming: Naming, y: nat, z: nat, key: string)
    requires 1000 <= y <= 9999 && 1000 <= z <= 9999 && y != z
    requires key in {YearColumn(naming.denominator, y), YearColumn(naming.numerator, y), YearColumn(naming.ratio, y)}
    ensures key !in {YearColumn(naming.denominator, z), YearColumn(naming.numerator, z), YearColumn(naming.ratio, z)}
  {
    var s :| s in [naming.denominator, naming.numerator, naming.ratio] && key == YearColumn(s, y);
    YearColumnsDistinct(s, naming.denominator, y, z);
    YearColumnsDistinct(s, naming.numerator, y, z);
    YearColumnsDistinct(s, naming.ratio, y, z);
  }

  /** The three years are distinct four-digit numbers. */
  lemma YearsWellFormed()
    ensures forall k :: 0 <= k < |Years| ==> 1000 <= Years[k] <= 9999
    ensures NoDup(Years)
  {
  }

  /** The cells one year writes for bucket `b`, in terms of the filtered rows. */
  lemma YearCellsValues(filtered: seq<MetricRow>, b: string, naming: Naming, y: nat, policy: ZeroPolicy)
    ensures var cells := YearCells(filtered, b, naming, y, policy);
            var dc := YearColumn(naming.denominator, y);
            var nc := YearColumn(naming.numerator, y);
            var rc := YearColumn(naming.ratio, y);
            var has := b in Buckets(filtered);
            && cells[rc] == Settle(if has then Divide(BucketSum(filtered, b, nc), BucketSum(filtered, b, dc)) else NaN, policy)
            && (nc != rc ==> cells[nc] == Settle(if has then Finite(BucketSum(filtered, b, nc)) else NaN, policy))
            && (dc != nc && dc != rc ==> cells[dc] == Settle(if has then Finite(BucketSum(filtered, b, dc)) else NaN, policy))
  {
    GroupSumsSpec(filtered, YearColumn(naming.denominator, y), YearColumn(naming.numerator, y), b);
  }

  /** The ratio cell of row `i` for year `y`, stated over the UNFILTERED
      sheet: the selected rows' numerator total over their denominator total
      when the bucket has a selected row, and the filled NaN otherwise. */
  lemma AggregateRatio(t: MetricTable, sel: seq<string>, keyColumn: string, naming: Naming, policy: ZeroPolicy,
                       i: nat, y: nat)
    requires keyColumn == t.bucketColumn && ColumnsPresent(t, naming)
    requires i < |Unique(Buckets(t.rows))|
    requires y in Years
    ensures var row := Aggregate(t, sel, keyColumn, naming, policy).value.rows[i];
            && YearColumn(naming.ratio, y) in row.cells
            && row.cells[YearColumn(naming.ratio, y)] ==
                 Settle(if HasSelected(t.rows, sel, row.bucket)
                        then Divide(SelectedBucketSum(t.rows, sel, row.bucket, YearColumn(naming.numerator, y)),
                                    SelectedBucketSum(t.rows, sel, row.bucket, YearColumn(naming.denominator, y)))
                        else NaN, policy)
  {
    AggregateRow(t, sel, keyColumn, naming, policy, i);
    var row := Aggregate(t, sel, keyColumn, naming, policy).value.rows[i];
    var filtered := Selected(t.rows, sel);
    RowCellsYear(filtered, row.bucket, naming, y, policy);
    YearCellsValues(filtered, row.bucket, naming, y, policy);
    SelectedSums(t.rows, sel, row.bucket, YearColumn(naming.denominator, y));
    SelectedSums(t.rows, sel, row.bucket, YearColumn(naming.numerator, y));
    SelectedBuckets(t.rows, sel, row.bucket);
  }

  /** The numerator cell of row `i` for year `y`: the selected rows' total
      when the bucket has a selected row, the filled NaN otherwise (stated
      when the ratio column does not overwrite it). */
  lemma AggregateNumerator(t: MetricTable, sel: seq<string>, keyColumn: string, naming: Naming, policy: ZeroPolicy,
                           i: nat, y: nat)
    requires keyColumn == t.bucketColumn && ColumnsPresent(t, naming)
    requires i < |Unique(Buckets(t.rows))|
    requires y in Years
    requires naming.numerator != naming.ratio
    ensures var row := Aggregate(t, sel, keyColumn, naming, policy).value.rows[i];
            && YearColumn(naming.numerator, y) in row.cells
            && row.cells[YearColumn(naming.numerator, y)] ==
                 Settle(if HasSelected(t.rows, sel, row.bucket)
                        then Finite(SelectedBucketSum(t.rows, sel, row.bucket, YearColumn(naming.numerator, y)))
                        else NaN, policy)
  {
    AggregateRow(t, sel, keyColumn, naming, policy, i);
    var row := Aggregate(t, sel, keyColumn, naming, policy).value.rows[i];
    var filtered := Selected(t.rows, sel);
    RowCellsYear(filtered, row.bucket, naming, y, policy);
    StemsToColumns(naming.numerator, naming.ratio, y);
    YearCellsValues(filtered, row.bucket, naming, y, policy);
    SelectedSums(t.rows, sel, row.bucket, YearColumn(naming.numerator, y));
    SelectedBuckets(t.rows, sel, row.bucket);
  }

  /** The denominator cell of row `i` for year `y`: the selected rows' total
      when the bucket has a selected row, the filled NaN otherwise (stated
      when neither later column of the year overwrites it). */
  lemma AggregateDenominator(t: MetricTable, sel: seq<string>, keyColumn: string, naming: Naming, policy: ZeroPolicy,
                             i: nat, y: nat)
    requires keyColumn == t.bucketColumn && ColumnsPresent(t, naming)
    requires i < |Unique(Buckets(t.rows))|
    requires y in Years
    requires naming.denominator != naming.numerator && naming.denominator != naming.ratio
    ensures var row := Aggregate(t, sel, keyColumn, naming, policy).value.rows[i];
            && YearColumn(naming.denominator, y) in row.cells
            && row.cells[YearColumn(naming.denominator, y)] ==
                 Settle(if HasSelected(t.rows, sel, row.bucket)
                        then Finite(SelectedBucketSum(t.rows, sel, row.bucket, YearColumn(naming.denominator, y)))
                        else NaN, policy)
  {
    AggregateRow(t, sel, keyColumn, naming, policy, i);
    var row := Aggregate(t, sel, keyColumn, naming, policy).value.rows[i];
    var filtered := Selected(t.rows, sel);
    RowCellsYear(filtered, row.bucket, naming, y, policy);
    StemsToColumns(naming.denominator, naming.numerator, y);
    StemsToColumns(naming.denominator, naming.ratio, y);
    YearCellsValues(filtered, row.bucket, naming, y, policy);
    SelectedSums(t.rows, sel, row.bucket, YearColumn(naming.denominator, y));
    SelectedBuckets(t.rows, sel, row.bucket);
  }

  /** Different stems give different columns for the same year. */
  lemma StemsToColumns(s1: string, s2: string, y: nat)
    ensures s1 != s2 ==> YearColumn(s1, y) != YearColumn(s2, y)
  {
    var suffix := "_" + NatToString(y);
    var c1 := YearColumn(s1, y);
    var c2 := YearColumn(s2, y);
    assert c1[..|c1| - |suffix|] == s1;
    assert c2[..|c2| - |suffix|] == s2;
  }

  /** Row `i` of a successful aggregation, unfolded. */
  lemma AggregateRow(t: MetricTable, sel: seq<string>, keyColumn: string, naming: Naming, policy: ZeroPolicy, i: nat)
    requires keyColumn == t.bucketColumn && ColumnsPresent(t, naming)
    requires i < |Unique(Buckets(t.rows))|
    ensures var row := Aggregate(t, sel, keyColumn, naming, policy).value.rows[i];
            row.cells == RowCells(Selected(t.rows, sel), row.bucket, naming, Years, policy)
  {
  }

  /** Every cell written for a year of `Years` keeps its value in the row. */
  lemma RowCellsYear(filtered: seq<MetricRow>, b: string, naming: Naming, y: nat, policy: ZeroPolicy)
    requires y in Years
    ensures forall k :: k in YearCells(filtered, b, naming, y, policy) ==>
              k in RowCells(filtered, b, naming, Years, policy)
              && RowCells(filtered, b, naming, Years, policy)[k] == YearCells(filtered, b, naming, y, policy)[k]
  {
    var j :| 0 <= j < |Years| && Years[j] == y;
    YearsWellFormed();
    forall k | k in YearCells(filtered, b, naming, y, policy)
      ensures k in RowCells(filtered, b, naming, Years, policy)
      ensures RowCells(filtered, b, naming, Years, policy)[k] == YearCells(filtered, b, naming, y, policy)[k]
    {
      RowCellsAt(filtered, b, naming, Years, policy, j, k);
    }
  }

  /** A bucket without selected rows reads 0 (or blank) in every column. */
  lemma {:induction false} UnselectedBucketCells(filtered: seq<MetricRow>, b: string, naming: Naming,
                                                 ys: seq<nat>, policy: ZeroPolicy)
    requires b !in Buckets(filtered)
    ensures forall k :: k in RowCells(filtered, b, naming, ys, policy) ==>
              RowCells(filtered, b, naming, ys, policy)[k] == Settle(NaN, policy)
  {
    if |ys| > 0 {
      UnselectedBucketCells(filtered, b, naming, ys[..|ys| - 1], policy);
      var y := ys[|ys| - 1];
      GroupSumsSpec(filtered, YearColumn(naming.denominator, y), YearColumn(naming.numerator, y), b);
    }
  }

  /** With nothing selected every cell of every bucket is 0, or blank under
      `BlankZeros`; nothing raises. */
  lemma EmptySelectionZero(t: MetricTable, keyColumn: string, naming: Naming, policy: ZeroPolicy)
    requires keyColumn == t.bucketColumn && ColumnsPresent(t, naming)
    ensures Aggregate(t, [], keyColumn, naming, policy).Success?
    ensures var f := Aggregate(t, [], keyColumn, naming, policy).value;
            forall i, k :: 0 <= i < |f.rows| && k in f.rows[i].cells ==>
              f.rows[i].cells[k] == (if policy.KeepZeros? then Val(Finite(0.0)) else Blank)
  {
    var f := Aggregate(t, [], keyColumn, naming, policy).value;
    forall i | 0 <= i < |f.rows|
      ensures forall k :: k in f.rows[i].cells ==> f.rows[i].cells[k] == Settle(NaN, policy)
    {
      var b := f.rows[i].bucket;
      SelectedBuckets(t.rows, [], b);
      UnselectedBucketCells(Selected(t.rows, []), b, naming, Years, policy);
    }
  }

  /** The bucket domain does not depend on the selection. */
  lemma DomainIndependentOfSelection(t: MetricTable, s1: seq<string>, s2: seq<string>, keyColumn: string,
                                     naming: Naming, policy: ZeroPolicy)
    requires keyColumn == t.bucketColumn && ColumnsPresent(t, naming)
    ensures Aggregate(t, s2, keyColumn, naming, policy).Success?
    ensures var r1 := Aggregate(t, s1, keyColumn, naming, policy).value.rows;
            var r2 := Aggregate(t, s2, keyColumn, naming, policy).value.rows;
            |r1| == |r2| && forall i :: 0 <= i < |r1| ==> r1[i].bucket == r2[i].bucket
  {
  }

  /** Exactly one row per distinct bucket of the unfiltered sheet, in the
      order in which the buckets first appear there. */
  lemma AggregateDomain(t: MetricTable, sel: seq<string>, keyColumn: string, naming: Naming, policy: ZeroPolicy)
    requires keyColumn == t.bucketColumn && ColumnsPresent(t, naming)
    ensures var rows := Aggregate(t, sel, keyColumn, naming, policy).value.rows;
            && (forall i, j :: 0 <= i < j < |rows| ==> rows[i].bucket != rows[j].bucket)
            && (forall k :: 0 <= k < |t.rows| ==> exists i :: 0 <= i < |rows| && rows[i].bucket == t.rows[k].bucket)
            && (forall i :: 0 <= i < |rows| ==> rows[i].bucket in Buckets(t.rows))
            && (forall i, j :: 0 <= i < j < |rows| ==>
                  FirstIndex(Buckets(t.rows), rows[i].bucket) < FirstIndex(Buckets(t.rows), rows[j].bucket))
  {
    var rows := Aggregate(t, sel, keyColumn, naming, policy).value.rows;
    var u := Unique(Buckets(t.rows));
    UniqueFirstAppearance(Buckets(t.rows));
    forall k | 0 <= k < |t.rows|
      ensures exists i :: 0 <= i < |rows| && rows[i].bucket == t.rows[k].bucket
    {
      assert Buckets(t.rows)[k] in u;
      var i :| 0 <= i < |u| && u[i] == Buckets(t.rows)[k];
      assert rows[i].bucket == t.rows[k].bucket;
    }
  }

  /** Under `BlankZeros` no cell is 0; under `KeepZeros` no cell is blank;
      under either, no cell is NaN. */
  lemma SentinelPolicy(t: MetricTable, sel: seq<string>, keyColumn: string, naming: Naming, policy: ZeroPolicy)
    requires keyColumn == t.bucketColumn && ColumnsPresent(t, naming)
    ensures var rows := Aggregate(t, sel, keyColumn, naming, policy).value.rows;
            forall i, k :: 0 <= i < |rows| && k in rows[i].cells ==>
              && rows[i].cells[k] != Val(NaN)
              && (policy.BlankZeros? ==> rows[i].cells[k] != Val(Finite(0.0)))
              && (policy.KeepZeros? ==> rows[i].cells[k] != Blank)
  {
    var rows := Aggregate(t, sel, keyColumn, naming, policy).value.rows;
    forall i | 0 <= i < |rows|
      ensures forall k :: k in rows[i].cells ==> exists v :: rows[i].cells[k] == Settle(v, policy)
    {
      AggregateRow(t, sel, keyColumn, naming, policy, i);
      SettledCells(Selected(t.rows, sel), rows[i].bucket, naming, Years, policy);
    }
  }

  lemma {:induction false} SettledCells(filtered: seq<MetricRow>, b: string, naming: Naming,
                                        ys: seq<nat>, policy: ZeroPolicy)
    ensures forall k :: k in RowCells(filtered, b, naming, ys, policy) ==>
              exists v :: RowCells(filtered, b, naming, ys, policy)[k] == Settle(v, policy)
  {
    if |ys| > 0 {
      SettledCells(filtered, b, naming, ys[..|ys| - 1], policy);
    }
  }
}

=== FILE: cards.dfy ===
/** The KPI cards of `build_cards_html`: for each registry entry in order,
    run its calculator; skip an entry with no selected row; otherwise show
    both years through `fmt`, the year-over-year change with an arrow and a
    class, and the metric definition looked up by title. An exception in any
    entry aborts the whole build: nothing isolates one card's failure. */
module Cards {

  import opened Wrappers
  import opened Floats
  import opened Tables
  import opened KpiCalc
  import opened Format

  datatype Arrow = Up | Down

  /** One rendered card, as the values its HTML shows. */
  datatype Card = Card(title: string, definition: string, shown2024: string, shown2025: string,
                       arrow: Arrow, changeClass: string, shownChange: string)

  /** One row of the metric definition sheet: `KPI_Metrics`, `Definition`. */
  datatype DefinitionRow = DefinitionRow(metric: string, definition: string)

  /** The calculator a registry entry runs. */
  datatype CalcKind = Average | ActiveUsers

  /** A registry entry: `{"df": sheet, "calc": calculator}`. */
  datatype Entry = Entry(sheet: KpiTable, kind: CalcKind)

  /** The titles with a definition lookup; any other title gets the fallback. */
  const KnownTitles: set<string> :=
    {"Score Gain", "Avg Activity / User", "Active Users", "Avg Questions Answered / User", "Avg Tests / User"}

  /** The fallback tooltip text, misspelt as the dashboard shows it. */
  const Fallback: string := "Somethig went wrong"

  /** `float(x)` on a numpy scalar. */
  function ToFloat(n: Number): (f: Float)
    ensures n.IntNum? ==> f == Finite(n.i as real)
    ensures n.FloatNum? ==> f == n.f
  {
    match n
    case IntNum(i) => Finite(i as real)
    case FloatNum(f) => f
  }

  /** `i` is the first definition row for `title`. */
  ghost predicate FirstMatchAt(defs: seq<DefinitionRow>, title: string, i: int) {
    0 <= i < |defs| && defs[i].metric == title && forall h :: 0 <= h < i ==> defs[h].metric != title
  }

  /** `.loc[sheet['KPI_Metrics'] == title, 'Definition']`, first element if any. */
  function FirstDefinition(defs: seq<DefinitionRow>, title: string): (r: Option<string>)
    ensures r.None? <==> forall i :: 0 <= i < |defs| ==> defs[i].metric != title
    ensures r.Some? ==> exists i :: FirstMatchAt(defs, title, i) && defs[i].definition == r.value
  {
    if |defs| == 0 then None
    else if defs[0].metric == title then
      assert FirstMatchAt(defs, title, 0);
      Some(defs[0].definition)
    else
      var r := FirstDefinition(defs[1..], title);
      assert r.Some? ==> exists i :: FirstMatchAt(defs, title, i) && defs[i].definition == r.value by {
        if r.Some? {
          var i :| FirstMatchAt(defs[1..], title, i) && defs[1..][i].definition == r.value;
          assert FirstMatchAt(defs, title, i + 1);
        }
      }
      r
  }

  /** The tooltip text for a card title: the first matching definition of a
      known title (`iloc[0]` raises when there is none), the fallback text
      for any other title. */
  function Definition(title: string, defs: seq<DefinitionRow>): (r: Result<string, Error>)
    ensures title !in KnownTitles ==> r == Success(Fallback)
    ensures title in KnownTitles && r.Failure? ==> r.error == NoDefinition(title)
    ensures title in KnownTitles ==>
              (r.Success? <==> exists i :: 0 <= i < |defs| && defs[i].metric == title)
    ensures title in KnownTitles && r.Success? ==>
              exists i :: FirstMatchAt(defs, title, i) && defs[i].definition == r.value
  {
    if title in KnownTitles then
      match FirstDefinition(defs, title)
      case Some(d) => Success(d)
      case None => Failure(NoDefinition(title))
    else Success(Fallback)
  }

  /** `"positive" if change >= 0 else "negative"`. */
  function ChangeClass(a: Arrow): string {
    if a == Up then "positive" else "negative"
  }

  /** `float(v2025) - float(v2024)`. */
  function Change(k: KpiResult): Float {
    Sub(ToFloat(k.v2025), ToFloat(k.v2024))
  }

  /** One card from a calculator result. */
  function MakeCard(k: KpiResult, defs: seq<DefinitionRow>): (r: Result<Card, Error>)
    ensures r.Success? <==> Definition(k.title, defs).Success?
    ensures r.Success? ==> r.value.title == k.title && r.value.definition == Definition(k.title, defs).value
    ensures r.Success? ==> (r.value.arrow == Up <==> AtLeastZero(Change(k)))
    ensures r.Success? ==> (r.value.changeClass == "positive" <==> r.value.arrow == Up)
    ensures r.Success? ==> r.value.shown2024 == Fmt(k.v2024) && r.value.shown2025 == Fmt(k.v2025)
    ensures r.Success? ==> r.value.shownChange == Fmt(FloatNum(Change(k)))
  {
    var change := Change(k);
    var arrow := if AtLeastZero(change) then Up else Down;
    match Definition(k.title, defs)
    case Failure(e) => Failure(e)
    case Success(d) =>
      Success(Card(k.title, d, Fmt(k.v2024), Fmt(k.v2025), arrow, ChangeClass(arrow), Fmt(FloatNum(change))))
  }

  /** The entry's calculator on its sheet. */
  function Outcome(e: Entry, sel: seq<string>): Result<Option<KpiResult>, Error> {
    match e.kind
    case Average => CalcAvg(e.sheet, sel)
    case ActiveUsers => CalcActiveUsers(e.sheet, sel)
  }

  /** The entry yields a card (its calculator returned a result). */
  predicate Produces(e: Entry, sel: seq<string>) {
    Outcome(e, sel).Success? && Outcome(e, sel).value.Some?
  }

  /** The entry runs without raising. */
  predicate EntryOk(e: Entry, sel: seq<string>, defs: seq<DefinitionRow>) {
    Outcome(e, sel).Success? &&
    (Outcome(e, sel).value.Some? ==> Definition(Outcome(e, sel).value.value.title, defs).Success?)
  }

  /** How many entries yield a card. */
  function CountProduced(registry: seq<Entry>, sel: seq<string>): (n: nat)
    ensures n <= |registry|
  {
    if |registry| == 0 then 0
    else (if Produces(registry[0], sel) then 1 else 0) + CountProduced(registry[1..], sel)
  }

  /** `build_cards_html` as the list of cards it joins; the first exception
      of any entry, in registry order, aborts the build. */
  function BuildCards(registry: seq<Entry>, sel: seq<string>, defs: seq<DefinitionRow>): (r: Result<seq<Card>, Error>)
    ensures r.Success? ==> |r.value| <= |registry|
    ensures r.Failure? ==> r.error.MissingColumn? || r.error.NoDefinition?
  {
    if |registry| == 0 then Success([])
    else
      match Outcome(registry[0], sel)
      case Failure(e) => Failure(e)
      case Success(None) => BuildCards(registry[1..], sel, defs)
      case Success(Some(k)) =>
        match MakeCard(k, defs)
        case Failure(e) => Failure(e)
        case Success(c) =>
          match BuildCards(registry[1..], sel, defs)
          case Failure(e) => Failure(e)
          case Success(cs) => Success([c] + cs)
  }

  /** The dashboard's registry: score gain, activity per user, active users,
      questions answered per user, tests per user, in that order. */
  function Registry(scoreGain: KpiTable, activityPerUser: KpiTable, activeUsers: KpiTable,
                    questionsPerUser: KpiTable, testsPerUser: KpiTable): (r: seq<Entry>)
    ensures |r| == 5
    ensures forall i :: 0 <= i < 5 ==> (r[i].kind == ActiveUsers <==> i == 2)
  {
    [Entry(scoreGain, Average), Entry(activityPerUser, Average), Entry(activeUsers, ActiveUsers),
     Entry(questionsPerUser, Average), Entry(testsPerUser, Average)]
  }

  /** The KPI section: with an empty selection the warning replaces the cards
      (`None`); otherwise the monthly and year-to-date card rows. */
  function KpiSection(sel: seq<string>, monthly: seq<Entry>, yearToDate: seq<Entry>, defs: seq<DefinitionRow>)
    : (r: Result<Option<(seq<Card>, seq<Card>)>, Error>)
    ensures |sel| == 0 <==> r == Success(None)
    ensures r.Success? <==>
              |sel| == 0 || (BuildCards(monthly, sel, defs).Success? && BuildCards(yearToDate, sel, defs).Success?)
    ensures r.Success? && r.value.Some? ==>
              r.value.value == (BuildCards(monthly, sel, defs).value, BuildCards(yearToDate, sel, defs).value)
  {
    if |sel| == 0 then Success(None)
    else
      match BuildCards(monthly, sel, defs)
      case Failure(e) => Failure(e)
      case Success(m) =>
        match BuildCards(yearToDate, sel, defs)
        case Failure(e) => Failure(e)
        case Success(y) => Success(Some((m, y)))
  }

  // ---------------------------------------------------------------------
  // Properties.

  /** Python's `b >= a` on floats: false when either is NaN. */
  predicate NotBelow(b: Float, a: Float) {
    match (b, a)
    case (NaN, _) => false
    case (_, NaN) => false
    case (PosInf, _) => true
    case (_, NegInf) => true
    case (NegInf, _) => false
    case (_, PosInf) => false
    case (Finite(y), Finite(x)) => y >= x
  }

  /** The arrow points up exactly when 2025 is not below 2024 — except when
      both years are the same infinity, where the difference is NaN and the
      arrow points down. */
  lemma ArrowMeaning(k: KpiResult, defs: seq<DefinitionRow>)
    requires MakeCard(k, defs).Success?
    ensures var a := ToFloat(k.v2024);
            var b := ToFloat(k.v2025);
            MakeCard(k, defs).value.arrow == Up <==>
              NotBelow(b, a) && !(a.PosInf? && b.PosInf?) && !(a.NegInf? && b.NegInf?)
  {
  }

  /** An entry with no selected row never fails: both calculators return
      `None` first. */
  lemma EmptySelectionProducesNothing(e: Entry)
    ensures Outcome(e, []) == Success(None)
  {
  }

  /** With no product selected no card is built, so the section's gate only
      replaces an empty row with the warning. */
  lemma {:induction false} EmptySelectionNoCards(registry: seq<Entry>, defs: seq<DefinitionRow>)
    ensures BuildCards(registry, [], defs) == Success([])
  {
    if |registry| > 0 {
      EmptySelectionProducesNothing(registry[0]);
      EmptySelectionNoCards(registry[1..], defs);
    }
  }

  /** Every entry of the registry runs without raising. */
  predicate AllEntriesOk(registry: seq<Entry>, sel: seq<string>, defs: seq<DefinitionRow>) {
    forall i :: 0 <= i < |registry| ==> EntryOk(registry[i], sel, defs)
  }

  lemma AllEntriesOkTail(registry: seq<Entry>, sel: seq<string>, defs: seq<DefinitionRow>)
    requires |registry| > 0 && AllEntriesOk(registry, sel, defs)
    ensures EntryOk(registry[0], sel, defs) && AllEntriesOk(registry[1..], sel, defs)
  {
    assert forall i :: 1 <= i < |registry| ==> registry[i] == registry[1..][i - 1];
  }

  /** The build succeeds exactly when every entry runs without raising. */
  lemma {:induction false} BuildCardsSucceeds(registry: seq<Entry>, sel: seq<string>, defs: seq<DefinitionRow>)
    ensures BuildCards(registry, sel, defs).Success? <==> AllEntriesOk(registry, sel, defs)
  {
    if |registry| > 0 {
      BuildCardsSucceeds(registry[1..], sel, defs);
      assert forall i :: 1 <= i < |registry| ==> registry[i] == registry[1..][i - 1];
      var ok := forall i :: 0 <= i < |registry| ==> EntryOk(registry[i], sel, defs);
      if ok {
        assert EntryOk(registry[0], sel, defs);
      }
    }
  }

  /** One step of a successful build: the rest builds too, and the first
      entry contributes its card when it produces one. */
  lemma BuildCardsStep(registry: seq<Entry>, sel: seq<string>, defs: seq<DefinitionRow>)
    requires |registry| > 0 && AllEntriesOk(registry, sel, defs)
    ensures BuildCards(registry, sel, defs).Success? && BuildCards(registry[1..], sel, defs).Success?
    ensures Produces(registry[0], sel) ==> MakeCard(Outcome(registry[0], sel).value.value, defs).Success?
    ensures BuildCards(registry, sel, defs).value ==
              (if Produces(registry[0], sel) then [MakeCard(Outcome(registry[0], sel).value.value, defs).value] else [])
              + BuildCards(registry[1..], sel, defs).value
  {
    BuildCardsSucceeds(registry, sel, defs);
    AllEntriesOkTail(registry, sel, defs);
    BuildCardsSucceeds(registry[1..], sel, defs);
  }

  /** A successful build has one card per producing entry, in registry
      order: the entry at `i` gives the card after those of the producing
      entries before it. */
  lemma {:induction false} BuildCardsAt(registry: seq<Entry>, sel: seq<string>, defs: seq<DefinitionRow>, i: nat)
    requires AllEntriesOk(registry, sel, defs)
    requires i < |registry| && Produces(registry[i], sel)
    ensures BuildCards(registry, sel, defs).Success?
    ensures var cards := BuildCards(registry, sel, defs).value;
            && |cards| == CountProduced(registry, sel)
            && CountProduced(registry[..i], sel) < |cards|
            && MakeCard(Outcome(registry[i], sel).value.value, defs).Success?
            && cards[CountProduced(registry[..i], sel)] == MakeCard(Outcome(registry[i], sel).value.value, defs).value
  {
    var rest := registry[1..];
    BuildCardsStep(registry, sel, defs);
    BuildCardsCount(registry, sel, defs);
    if i == 0 {
      assert registry[..0] == [];
    } else {
      assert rest[i - 1] == registry[i];
      AllEntriesOkTail(registry, sel, defs);
      BuildCardsAt(rest, sel, defs, i - 1);
      CardsAfterHead(registry, sel, defs, i);
    }
  }

  /** Past the head entry, the card at a prefix's count is the rest's card
      at the count of the rest's shorter prefix. */
  lemma CardsAfterHead(registry: seq<Entry>, sel: seq<string>, defs: seq<DefinitionRow>, i: nat)
    requires AllEntriesOk(registry, sel, defs)
    requires 0 < i < |registry|
    requires BuildCards(registry[1..], sel, defs).Success?
    requires CountProduced(registry[1..][..i - 1], sel) < |BuildCards(registry[1..], sel, defs).value|
    ensures BuildCards(registry, sel, defs).Success?
    ensures var cards := BuildCards(registry, sel, defs).value;
            && CountProduced(registry[..i], sel) < |cards|
            && cards[CountProduced(registry[..i], sel)]
               == BuildCards(registry[1..], sel, defs).value[CountProduced(registry[1..][..i - 1], sel)]
  {
    BuildCardsStep(registry, sel, defs);
    CountProducedPrefix(registry, sel, i);
    var cards := BuildCards(registry, sel, defs).value;
    var restCards := BuildCards(registry[1..], sel, defs).value;
    var k := CountProduced(registry[1..][..i - 1], sel);
    if Produces(registry[0], sel) {
      var c := MakeCard(Outcome(registry[0], sel).value.value, defs).value;
      assert cards == [c] + restCards;
      assert cards[1 + k] == restCards[k];
    } else {
      assert cards == restCards;
    }
  }

  /** Counting the producing entries of a non-empty prefix: the head's
      contribution plus the count over the rest's prefix. */
  lemma CountProducedPrefix(registry: seq<Entry>, sel: seq<string>, i: nat)
    requires 0 < i <= |registry|
    ensures CountProduced(registry[..i], sel)
            == (if Produces(registry[0], sel) then 1 else 0) + CountProduced(registry[1..][..i - 1], sel)
  {
    var prefix := registry[..i];
    assert prefix[0] == registry[0];
    assert prefix[1..] == registry[1..][..i - 1];
  }

  lemma {:induction false} BuildCardsCount(registry: seq<Entry>, sel: seq<string>, defs: seq<DefinitionRow>)
    requires AllEntriesOk(registry, sel, defs)
    ensures BuildCards(registry, sel, defs).Success?
    ensures |BuildCards(registry, sel, defs).value| == CountProduced(registry, sel)
  {
    if |registry| > 0 {
      BuildCardsStep(registry, sel, defs);
      AllEntriesOkTail(registry, sel, defs);
      BuildCardsCount(registry[1..], sel, defs);
    }
  }

  /** A definition lookup with a matching row gives its first match's text;
      an unknown title gives the fallback whatever the sheet holds. */
  lemma DefinitionLookup(title: string, defs: seq<DefinitionRow>, i: nat)
    requires i < |defs| && defs[i].metric == title
    requires forall h :: 0 <= h < i ==> defs[h].metric != title
    ensures Definition(title, defs) == Success(if title in KnownTitles then defs[i].definition else Fallback)
  {
    if title in KnownTitles {
      assert defs[i].metric == title;
      assert Definition(title, defs).Success?;
      var j :| FirstMatchAt(defs, title, j) && defs[j].definition == Definition(title, defs).value;
      assert 0 <= j < |defs| && defs[j].metric == title;
      assert !(j < i);
      assert !(i < j);
    }
  }
}

=== FILE: floats.dfy ===
/** The float64 values pandas and numpy produce, on exact reals: a finite
    number, an infinity, or NaN. Binary rounding is not modelled. */
module Floats {

  datatype Float = Finite(x: real) | PosInf | NegInf | NaN

  /** numpy's `num / den` on sums that are finite: a nonzero value over 0 is an
      infinity of its sign, and 0 / 0 is NaN; it never raises. */
  function Divide(num: real, den: real): (r: Float)
    ensures r.Finite? <==> den != 0.0
    ensures r.Finite? ==> r.x * den == num
    ensures r.NaN? <==> den == 0.0 && num == 0.0
    ensures r.PosInf? <==> den == 0.0 && num > 0.0
    ensures r.NegInf? <==> den == 0.0 && num < 0.0
  {
    if den != 0.0 then Finite(num / den)
    else if num > 0.0 then PosInf
    else if num < 0.0 then NegInf
    else NaN
  }

  /** IEEE 754 subtraction `a - b`. */
  function Sub(a: Float, b: Float): (r: Float)
    ensures r.Finite? <==> a.Finite? && b.Finite?
    ensures r.Finite? ==> r.x + b.x == a.x
    ensures r.NaN? <==> a.NaN? || b.NaN? || (a.PosInf? && b.PosInf?) || (a.NegInf? && b.NegInf?)
    ensures r.PosInf? <==> (a.PosInf? && !b.PosInf? && !b.NaN?) || (b.NegInf? && !a.NegInf? && !a.NaN?)
    ensures r.NegInf? <==> (a.NegInf? && !b.NegInf? && !b.NaN?) || (b.PosInf? && !a.PosInf? && !a.NaN?)
  {
    match (a, b)
    case (NaN, _) => NaN
    case (_, NaN) => NaN
    case (PosInf, PosInf) => NaN
    case (NegInf, NegInf) => NaN
    case (PosInf, _) => PosInf
    case (NegInf, _) => NegInf
    case (Finite(_), PosInf) => NegInf
    case (Finite(_), NegInf) => PosInf
    case (Finite(x), Finite(y)) => Finite(x - y)
  }

  /** Python `v >= 0` on a float: false for NaN. */
  predicate AtLeastZero(v: Float) {
    match v
    case Finite(x) => x >= 0.0
    case PosInf => true
    case NegInf => false
    case NaN => false
  }
}

=== FILE: format.dfy ===
/** The card number formatter `fmt`: a dash for NaN, comma-grouped whole
    numbers from magnitude 1000 up, one decimal place below, and `str(x)` for
    an `int64` (which fails the source's `isinstance(x, (int, float,
    np.floating))` test). Rounding is round-half-even on the exact value. */
module Format {

  import opened Wrappers
  import opened Text
  import opened Floats
  import opened KpiCalc

  /** The placeholder shown for NaN. */
  const Placeholder: string := "—"

  function Abs(x: real): (r: real)
    ensures r >= 0.0 && (r == x || r == -x)
  {
    if x < 0.0 then -x else x
  }

  /** The sign Python prints: "-" for a negative value, even one that rounds to 0. */
  function SignText(x: real): string {
    if x < 0.0 then "-" else ""
  }

  /** Rounding of a non-negative real to a whole number, ties to even, as
      Python's fixed-point formatting rounds an exact value. */
  function RoundHalfEven(x: real): (n: nat)
    requires x >= 0.0
    ensures -0.5 <= n as real - x <= 0.5
    ensures (n as real - x == 0.5 || x - n as real == 0.5) ==> n % 2 == 0
  {
    var f := x.Floor;
    var frac := x - f as real;
    if frac > 0.5 then f + 1
    else if frac < 0.5 then f
    else if f % 2 == 0 then f
    else f + 1
  }

  /** Three digits, zero-padded: one group of a comma-grouped number. */
  function Pad3(m: nat): (s: string)
    requires m < 1000
    ensures |s| == 3 && AllDigits(s)
  {
    [DigitChar(m / 100), DigitChar(m / 10 % 10), DigitChar(m % 10)]
  }

  /** `f"{n:,}"` for a whole number: groups of three digits separated by commas. */
  function GroupThousands(n: nat): string {
    if n < 1000 then NatToString(n) else GroupThousands(n / 1000) + "," + Pad3(n % 1000)
  }

  /** A count of tenths written with one decimal place. */
  function Tenths(m: nat): string {
    NatToString(m / 10) + "." + [DigitChar(m % 10)]
  }

  /** `f"{x:.1f}"` on the exact value. */
  function OneDecimal(x: real): string {
    SignText(x) + Tenths(RoundHalfEven(Abs(x) * 10.0))
  }

  /** `fmt(x)`. */
  function Fmt(x: Number): (s: string)
    ensures s == Placeholder <==> x == FloatNum(NaN)
    ensures x == FloatNum(PosInf) ==> s == "inf"
    ensures x == FloatNum(NegInf) ==> s == "-inf"
    ensures |s| > 0
  {
    match x
    case FloatNum(NaN) => Placeholder
    case FloatNum(PosInf) => "inf"
    case FloatNum(NegInf) => "-inf"
    case FloatNum(Finite(v)) =>
      if Abs(v) >= 1000.0 then SignText(v) + GroupThousands(RoundHalfEven(Abs(v))) else OneDecimal(v)
    case IntNum(i) =>
      if Abs(i as real) >= 1000.0 then SignText(i as real) + GroupThousands(Abs(i as real).Floor)
      else IntToString(i)
  }

  // ---------------------------------------------------------------------
  // Reading formatted numbers back.

  /** The text with its commas removed. */
  function StripCommas(s: string): string {
    if |s| == 0 then ""
    else StripCommas(s[..|s| - 1]) + (if s[|s| - 1] == ',' then "" else [s[|s| - 1]])
  }

  /** Digits, optionally followed by "." and one digit. */
  function ReadUnsigned(s: string): Option<real> {
    if |s| >= 3 && s[|s| - 2] == '.' then
      if AllDigits(s[..|s| - 2]) && IsDigit(s[|s| - 1])
      then Some(ParseDigits(s[..|s| - 2]) as real + DigitValue(s[|s| - 1]) as real / 10.0)
      else None
    else if |s| > 0 && AllDigits(s) then Some(ParseDigits(s) as real)
    else None
  }

  /** The value an unsigned formatted text shows, commas ignored. */
  function ReadMagnitude(s: string): Option<real> {
    ReadUnsigned(StripCommas(s))
  }

  function Negate(o: Option<real>): Option<real> {
    match o
    case Some(v) => Some(-v)
    case None => None
  }

  /** The number a formatted text shows: optional "-", digits with commas,
      optional one decimal digit. */
  function ReadNumber(s: string): Option<real> {
    if |s| > 0 && s[0] == '-' then Negate(ReadMagnitude(s[1..])) else ReadMagnitude(s)
  }

  // ---------------------------------------------------------------------
  // Properties.

  lemma {:induction false} StripCommasConcat(a: string, b: string)
    ensures StripCommas(a + b) == StripCommas(a) + StripCommas(b)
  {
    if |b| > 0 {
      StripCommasConcat(a, b[..|b| - 1]);
      assert (a + b)[..|a + b| - 1] == a + b[..|b| - 1];
    } else {
      assert a + b == a;
    }
  }

  lemma {:induction false} StripCommasDigits(s: string)
    requires AllDigits(s)
    ensures StripCommas(s) == s
  {
    if |s| > 0 {
      StripCommasDigits(s[..|s| - 1]);
    }
  }

  lemma DivMod10(a: nat, b: nat)
    requires b < 10
    ensures (10 * a + b) / 10 == a && (10 * a + b) % 10 == b
  {
  }

  /** One more low digit appends its character. */
  lemma NatToStringStep(a: nat, u: nat)
    requires 1 <= a && u < 10
    ensures NatToString(10 * a + u) == NatToString(a) + [DigitChar(u)]
  {
    DivMod10(a, u);
  }

  /** The low digits `h t u` of `q h t u` follow the text of `q`. */
  lemma NatToStringDigits3(q: nat, h: nat, t: nat, u: nat)
    requires 1 <= q && h < 10 && t < 10 && u < 10
    ensures NatToString(1000 * q + 100 * h + 10 * t + u) == NatToString(q) + [DigitChar(h), DigitChar(t), DigitChar(u)]
  {
    var a1 := 10 * q + h;
    var a2 := 10 * a1 + t;
    NatToStringStep(q, h);
    NatToStringStep(a1, t);
    NatToStringStep(a2, u);
    assert 1000 * q + 100 * h + 10 * t + u == 10 * a2 + u;
  }

  /** The decimal text of `n` is the text of `n / 1000` followed by the three
      low digits. */
  lemma NatToStringSplit(n: nat)
    requires n >= 1000
    ensures NatToString(n) == NatToString(n / 1000) + Pad3(n % 1000)
  {
    var q, m := n / 1000, n % 1000;
    DivMod1000(n);
    NatToStringThousands(q, m);
  }

  lemma DivMod1000(n: nat)
    requires n >= 1000
    ensures n / 1000 >= 1 && n % 1000 < 1000
    ensures n == 1000 * (n / 1000) + n % 1000
  {
  }

  /** The text of `1000 q + m` is the text of `q` followed by `m` padded to three digits. */
  lemma NatToStringThousands(q: nat, m: nat)
    requires 1 <= q && m < 1000
    ensures NatToString(1000 * q + m) == NatToString(q) + Pad3(m)
  {
    var h, t, u := m / 100, m / 10 % 10, m % 10;
    ThreeDigitSplit(m);
    NatToStringDigits3(q, h, t, u);
  }

  /** A number below 1000 is its hundreds, tens and units digits. */
  lemma ThreeDigitSplit(m: nat)
    requires m < 1000
    ensures m / 100 < 10
    ensures m == 100 * (m / 100) + 10 * (m / 10 % 10) + m % 10
  {
  }

  /** Removing the grouping commas gives the plain decimal text. */
  lemma {:induction false} GroupThousandsDigits(n: nat)
    ensures StripCommas(GroupThousands(n)) == NatToString(n)
  {
    if n < 1000 {
      StripCommasDigits(NatToString(n));
    } else {
      GroupThousandsDigits(n / 1000);
      StripCommasConcat(GroupThousands(n / 1000) + ",", Pad3(n % 1000));
      StripCommasConcat(GroupThousands(n / 1000), ",");
      StripCommasDigits(Pad3(n % 1000));
      NatToStringSplit(n);
    }
  }

  /** A grouped number reads back as itself. */
  lemma ReadGrouped(n: nat)
    ensures ReadMagnitude(GroupThousands(n)) == Some(n as real)
  {
    GroupThousandsDigits(n);
    ParseNatToString(n);
  }

  /** A text that starts with a digit reads as itself, and with "-" put in
      front as its negation. */
  lemma ReadSigned(x: real, t: string)
    requires |t| > 0 && IsDigit(t[0])
    ensures ReadNumber(SignText(x) + t) == if x < 0.0 then Negate(ReadMagnitude(t)) else ReadMagnitude(t)
  {
    if x < 0.0 {
      assert (SignText(x) + t)[1..] == t;
    } else {
      assert SignText(x) + t == t;
    }
  }

  /** A decimal text has no commas to strip. */
  lemma StripFixed(q: nat, d: nat)
    requires d < 10
    ensures StripCommas(NatToString(q) + "." + [DigitChar(d)]) == NatToString(q) + "." + [DigitChar(d)]
  {
    StripCommasConcat(NatToString(q) + ".", [DigitChar(d)]);
    StripCommasConcat(NatToString(q), ".");
    StripCommasDigits(NatToString(q));
    StripCommasDigits([DigitChar(d)]);
    assert StripCommas(".") == StripCommas("") + ".";
  }

  /** Digits, a point and one digit read as the number they show. */
  lemma ReadUnsignedFixed(digits: string, c: char)
    requires |digits| > 0 && AllDigits(digits) && IsDigit(c)
    ensures ReadUnsigned(digits + "." + [c]) == Some(ParseDigits(digits) as real + DigitValue(c) as real / 10.0)
  {
    var body := digits + "." + [c];
    assert body[..|body| - 2] == digits;
    assert body[|body| - 2] == '.' && body[|body| - 1] == c;
  }

  /** Digits, a point and one digit read back as the number they show. */
  lemma ReadFixed(q: nat, d: nat)
    requires d < 10
    ensures ReadMagnitude(NatToString(q) + "." + [DigitChar(d)]) ==
            Some(q as real + d as real / 10.0)
  {
    StripFixed(q, d);
    ReadUnsignedFixed(NatToString(q), DigitChar(d));
    ParseNatToString(q);
  }

  /** A count of tenths reads back as itself over ten. */
  lemma ReadTenths(m: nat)
    ensures ReadMagnitude(Tenths(m)) == Some(m as real / 10.0)
    ensures IsDigit(Tenths(m)[0])
  {
    var q, d := m / 10, m % 10;
    assert Tenths(m) == NatToString(q) + "." + [DigitChar(d)];
    ReadFixed(q, d);
    assert m == 10 * q + d;
    assert q as real + d as real / 10.0 == m as real / 10.0;
  }

  /** A one-decimal text reads back within 1/20 of the value. */
  lemma ReadOneDecimal(x: real)
    ensures ReadNumber(OneDecimal(x)).Some?
    ensures -0.05 <= ReadNumber(OneDecimal(x)).value - x <= 0.05
  {
    var m := RoundHalfEven(Abs(x) * 10.0);
    ReadTenths(m);
    ReadSigned(x, Tenths(m));
  }

  /** What `fmt` writes for a finite float reads back within 1/2 of it from
      magnitude 1000 up, and within 1/20 below. */
  lemma FmtFiniteReadsBack(v: real)
    ensures ReadNumber(Fmt(FloatNum(Finite(v)))).Some?
    ensures var back := ReadNumber(Fmt(FloatNum(Finite(v)))).value;
            if Abs(v) >= 1000.0 then -0.5 <= back - v <= 0.5 else -0.05 <= back - v <= 0.05
  {
    if Abs(v) >= 1000.0 {
      var n := RoundHalfEven(Abs(v));
      ReadGrouped(n);
      GroupLeadingDigit(n);
      ReadSigned(v, GroupThousands(n));
    } else {
      ReadOneDecimal(v);
      assert Fmt(FloatNum(Finite(v))) == OneDecimal(v);
    }
  }

  /** What `fmt` writes for an `int64` reads back exactly. */
  lemma FmtIntReadsBack(i: int)
    ensures ReadNumber(Fmt(IntNum(i))) == Some(i as real)
  {
    var a: nat := if i < 0 then -i else i;
    assert Abs(i as real).Floor == a;
    if Abs(i as real) >= 1000.0 {
      ReadGrouped(a);
      GroupLeadingDigit(a);
      ReadSigned(i as real, GroupThousands(a));
    } else {
      assert Fmt(IntNum(i)) == SignText(i as real) + NatToString(a);
      ReadNatText(a);
      ReadSigned(i as real, NatToString(a));
    }
  }

  /** The decimal text of `n` reads back as `n`. */
  lemma ReadNatText(n: nat)
    ensures ReadMagnitude(NatToString(n)) == Some(n as real)
  {
    var s := NatToString(n);
    StripCommasDigits(s);
    ParseNatToString(n);
    if |s| >= 3 {
      assert IsDigit(s[|s| - 2]);
    }
  }

  /** A grouped number starts with a digit, never with "-", and that digit
      is a zero only for the number 0. */
  lemma {:induction false} GroupLeadingDigit(n: nat)
    ensures |GroupThousands(n)| > 0 && IsDigit(GroupThousands(n)[0])
    ensures n > 0 ==> GroupThousands(n)[0] != '0'
  {
    if n >= 1000 {
      GroupLeadingDigit(n / 1000);
    } else if n < 10 {
      assert GroupThousands(n) == [DigitChar(n)];
    }
  }

  // ---------------------------------------------------------------------
  // The shape of the text, independent of the value it reads back as.

  /** `f"{n:,}"` text: digits with a comma before every third digit counted
      from the right, and nowhere else; the leading group has one to three
      digits and starts with a zero only when it is the whole text "0". */
  predicate Grouped(t: string) {
    && |t| > 0
    && |t| % 4 != 0
    && (|t| > 1 ==> t[0] != '0')
    && forall k :: 0 <= k < |t| ==>
         && (t[k] == ',' || IsDigit(t[k]))
         && (t[k] == ',' <==> 0 < k && (|t| - k) % 4 == 0)
  }

  /** `f"{x:.1f}"` text without its sign: a whole part with no leading zero,
      a point, and exactly one digit. */
  predicate OneDecimalShape(t: string) {
    && |t| >= 3
    && AllDigits(t[..|t| - 2])
    && t[|t| - 2] == '.'
    && IsDigit(t[|t| - 1])
    && (|t| > 3 ==> t[0] != '0')
  }

  /** The text after a leading minus sign, if any. */
  function Unsigned(s: string): (t: string)
    ensures |t| <= |s|
  {
    if |s| > 0 && s[0] == '-' then s[1..] else s
  }

  /** Below 1000 the decimal text has at most three digits. */
  lemma ShortNatToString(n: nat)
    requires n < 1000
    ensures |NatToString(n)| <= 3
  {
    if n >= 10 {
      assert NatToString(n) == NatToString(n / 10) + [DigitChar(n % 10)];
      TwoDigitNatToString(n / 10);
    }
  }

  lemma TwoDigitNatToString(n: nat)
    requires n < 100
    ensures |NatToString(n)| <= 2
  {
    if n >= 10 {
      assert NatToString(n) == NatToString(n / 10) + [DigitChar(n % 10)];
    }
  }

  /** Grouping places its commas exactly where `f"{n:,}"` does. */
  lemma {:induction false} GroupThousandsShape(n: nat)
    ensures Grouped(GroupThousands(n))
  {
    var g := GroupThousands(n);
    if n < 1000 {
      ShortNatToString(n);
      forall k | 0 <= k < |g|
        ensures IsDigit(g[k]) && (|g| - k) % 4 != 0
      {
      }
    } else {
      var front := GroupThousands(n / 1000);
      var p := Pad3(n % 1000);
      GroupThousandsShape(n / 1000);
      GroupLeadingDigit(n / 1000);
      assert g == front + "," + p;
      assert g[0] == front[0];
      assert |g| == |front| + 4;
      forall k | 0 <= k < |g|
        ensures g[k] == ',' || IsDigit(g[k])
        ensures g[k] == ',' <==> 0 < k && (|g| - k) % 4 == 0
      {
        if k < |front| {
          assert g[k] == front[k];
          assert (|g| - k) % 4 == (|front| - k) % 4;
        } else if k > |front| {
          assert g[k] == p[k - |front| - 1];
        }
      }
    }
  }

  /** From magnitude 1000 up a float shows as its sign and its rounded
      magnitude grouped by commas, with no decimal point. */
  lemma FmtGroupedShape(v: real)
    requires Abs(v) >= 1000.0
    ensures var s := Fmt(FloatNum(Finite(v)));
            && '.' !in s
            && (s[0] == '-' <==> v < 0.0)
            && Grouped(Unsigned(s))
            && StripCommas(Unsigned(s)) == NatToString(RoundHalfEven(Abs(v)))
  {
    var n := RoundHalfEven(Abs(v));
    GroupedSigned(v, n);
    GroupThousandsDigits(n);
  }

  /** A sign in front of a text that starts with a digit: the sign reads
      as the value's, the rest is the text, and no point or comma is added. */
  lemma SignedText(x: real, t: string)
    requires |t| > 0 && IsDigit(t[0])
    ensures var s := SignText(x) + t;
            && (s[0] == '-' <==> x < 0.0)
            && Unsigned(s) == t
            && ('.' in s <==> '.' in t)
            && (',' in s <==> ',' in t)
  {
    var s := SignText(x) + t;
    if x < 0.0 {
      assert s[1..] == t;
      assert s == ['-'] + t;
    } else {
      assert s == t;
    }
  }

  /** A sign followed by a grouped number: the sign reads as the value's,
      the rest is the grouped text, and there is no point. */
  lemma GroupedSigned(x: real, n: nat)
    ensures var s := SignText(x) + GroupThousands(n);
            && '.' !in s
            && (s[0] == '-' <==> x < 0.0)
            && Unsigned(s) == GroupThousands(n)
            && Grouped(Unsigned(s))
  {
    var g := GroupThousands(n);
    GroupThousandsShape(n);
    GroupLeadingDigit(n);
    SignedText(x, g);
    assert forall k :: 0 <= k < |g| ==> g[k] != '.';
  }

  /** A count of tenths shows as a whole part, a point and one digit. */
  lemma TenthsShape(m: nat)
    ensures OneDecimalShape(Tenths(m))
    ensures ',' !in Tenths(m) && IsDigit(Tenths(m)[0])
  {
    var whole := NatToString(m / 10);
    var t := Tenths(m);
    assert t == whole + "." + [DigitChar(m % 10)];
    assert t[..|t| - 2] == whole;
    assert t[0] == whole[0];
    assert forall k :: 0 <= k < |whole| ==> t[k] == whole[k];
  }

  /** Below magnitude 1000 a float shows as its sign, a whole part, a point
      and exactly one digit, with no comma. */
  lemma FmtOneDecimalShape(v: real)
    requires Abs(v) < 1000.0
    ensures var s := Fmt(FloatNum(Finite(v)));
            && ',' !in s
            && (s[0] == '-' <==> v < 0.0)
            && OneDecimalShape(Unsigned(s))
  {
    var m := RoundHalfEven(Abs(v) * 10.0);
    assert Fmt(FloatNum(Finite(v))) == SignText(v) + Tenths(m);
    TenthsShape(m);
    SignedText(v, Tenths(m));
  }

  /** An `int64` never shows a decimal point: from magnitude 1000 up it is
      its magnitude grouped, below it is `str` of its magnitude, with no
      leading zero. */
  lemma FmtIntShape(i: int)
    ensures var s := Fmt(IntNum(i));
            var a := if i < 0 then -i else i;
            && '.' !in s
            && (s[0] == '-' <==> i < 0)
            && (Abs(i as real) >= 1000.0 ==> Grouped(Unsigned(s)) && StripCommas(Unsigned(s)) == NatToString(a))
            && (Abs(i as real) < 1000.0 ==> AllDigits(Unsigned(s)) && Unsigned(s) == NatToString(a))
  {
    var a: nat := if i < 0 then -i else i;
    assert Abs(i as real).Floor == a;
    if Abs(i as real) >= 1000.0 {
      GroupedSigned(i as real, a);
      GroupThousandsDigits(a);
    } else {
      var t := NatToString(a);
      var s := Fmt(IntNum(i));
      if i < 0 {
        assert s == "-" + t;
        assert s[1..] == t;
      } else {
        assert s == t;
      }
      assert forall k :: 0 <= k < |t| ==> t[k] != '.';
    }
  }

  /** A large value is grouped: 12500 shows as "12,500". */
  lemma FmtExampleGrouped()
    ensures Fmt(FloatNum(Finite(12500.0))) == "12,500"
  {
    assert RoundHalfEven(12500.0) == 12500;
    assert NatToString(12) == "12" by {
      assert NatToString(1) == "1";
    }
    assert GroupThousands(12) == "12";
    assert Pad3(500) == "500";
    assert GroupThousands(12500) == GroupThousands(12) + "," + Pad3(500);
    assert SignText(12500.0) == "";
  }

  /** The comma goes three digits from the right, never four: "1,000" and
      "1,234,567" are grouped text, "1000", "1234,567" and "01,000" are not. */
  lemma GroupedExamples()
    ensures Grouped("1,000") && Grouped("1,234,567")
    ensures !Grouped("1000") && !Grouped("1234,567") && !Grouped("01,000")
  {
  }

  /** An `int64` below 1000 shows as `str` does: 842 as "842", -7 as "-7". */
  lemma FmtIntExample()
    ensures Fmt(IntNum(842)) == "842" && Fmt(IntNum(-7)) == "-7"
  {
  }

  /** A small value gets one decimal: 4.567 shows as "4.6". */
  lemma FmtExampleDecimal()
    ensures Fmt(FloatNum(Finite(4.567))) == "4.6"
  {
    assert RoundHalfEven(45.67) == 46;
    assert NatToString(4) == "4";
    assert Tenths(46) == "4.6";
  }
}

=== FILE: kpi.dfy ===
/** The KPI scalar calculators behind the summary cards: `calc_avg`, a
    numerator total over a denominator total for 2024 and 2025 with the
    column pair chosen by the first selected row's `Parameter` param, and
    `calc_active_users`, two plain totals. Both return `None` when no row is
    selected. */
module KpiCalc {

  import opened Wrappers
  import opened Floats
  import opened Tables

  /** A numpy scalar: an `int64` or a `float64`. */
  datatype Number = IntNum(i: int) | FloatNum(f: Float)

  /** `(title, v2024, v2025)`. */
  datatype KpiResult = KpiResult(title: string, v2024: Number, v2025: Number)

  /** `df[df["product_code"].isin(sel)]` on a KPI sheet, order kept. */
  function SelectedRows(rows: seq<KpiRow>, sel: seq<string>): (r: seq<KpiRow>)
    ensures |r| == 0 <==> forall i :: 0 <= i < |rows| ==> rows[i].product !in sel
  {
    if |rows| == 0 then []
    else (if rows[0].product in sel then [rows[0]] else []) + SelectedRows(rows[1..], sel)
  }

  /** The param table of `calc_avg`: numerator and denominator column stems.
      Any other param leaves both stems empty. */
  function Stems(param: string): (r: (string, string))
    ensures r.1 == "total_eid" <==>
              param in {"Score Gain", "Avg Activity / User", "Avg Questions Answered / User", "Avg Tests / User"}
    ensures r.0 == "" <==> r.1 == ""
  {
    if param == "Score Gain" then ("total_diff_score", "total_eid")
    else if param == "Avg Activity / User" then ("total_sequence_name", "total_eid")
    else if param == "Avg Questions Answered / User" then ("total_total_scored_items_answered", "total_eid")
    else if param == "Avg Tests / User" then ("total_sequence_name", "total_eid")
    else ("", "")
  }

  /** A cell's contribution to `sum()` after `to_numeric(errors='coerce')`:
      NaN is skipped, so counts 0. */
  function NumericValue(c: Cell): real {
    match c
    case IntCell(i) => i as real
    case FloatCell(x) => x
    case NonNumeric => 0.0
  }

  /** `pd.to_numeric(col, errors='coerce').sum()` as a real. */
  function CoercedSum(rows: seq<KpiRow>, c: string): real {
    if |rows| == 0 then 0.0 else NumericValue(CellAt(rows[0], c)) + CoercedSum(rows[1..], c)
  }

  /** The coerced column keeps the integer dtype: every cell parses as an integer. */
  predicate AllIntegers(rows: seq<KpiRow>, c: string) {
    forall i :: 0 <= i < |rows| ==> CellAt(rows[i], c).IntCell?
  }

  /** The `int64` total of an all-integer column. */
  function IntSum(rows: seq<KpiRow>, c: string): (s: int)
    requires AllIntegers(rows, c)
    ensures s as real == CoercedSum(rows, c)
  {
    if |rows| == 0 then 0 else CellAt(rows[0], c).i + IntSum(rows[1..], c)
  }

  /** `Series.sum()` of the coerced column: an `int64` when the column kept
      the integer dtype, a `float64` otherwise. */
  function ColumnTotal(rows: seq<KpiRow>, c: string): (n: Number)
    ensures n.IntNum? <==> AllIntegers(rows, c)
    ensures n.IntNum? ==> n.i as real == CoercedSum(rows, c)
    ensures n.FloatNum? ==> n.f == Finite(CoercedSum(rows, c))
  {
    if AllIntegers(rows, c) then IntNum(IntSum(rows, c)) else FloatNum(Finite(CoercedSum(rows, c)))
  }

  /** Reference total over the UNFILTERED sheet: column `c` over the selected
      rows, a non-numeric cell counting 0. */
  function SelectedSum(rows: seq<KpiRow>, sel: seq<string>, c: string): real {
    if |rows| == 0 then 0.0
    else (if rows[0].product in sel then NumericValue(CellAt(rows[0], c)) else 0.0) + SelectedSum(rows[1..], sel, c)
  }

  /** `i` is the first selected row of `rows`. */
  ghost predicate FirstSelectedAt(rows: seq<KpiRow>, sel: seq<string>, i: int) {
    0 <= i < |rows| && rows[i].product in sel && forall h :: 0 <= h < i ==> rows[h].product !in sel
  }

  /** `calc_avg`: `None` when no row is selected; a `KeyError` when one of
      the four `_24`/`_25` columns of the param's pair is absent; otherwise
      the first selected row's param with Σnum/Σden for 2024 and 2025. */
  function CalcAvg(t: KpiTable, sel: seq<string>): (r: Result<Option<KpiResult>, Error>)
    ensures r == Success(None) <==> forall i :: 0 <= i < |t.rows| ==> t.rows[i].product !in sel
    ensures r.Failure? ==> r.error.MissingColumn? && r.error.name !in t.columns
  {
    var f := SelectedRows(t.rows, sel);
    if |f| == 0 then Success(None)
    else
      var param := f[0].parameter;
      var (n, d) := Stems(param);
      match FirstMissing(t.columns, [n + "_24", d + "_24", n + "_25", d + "_25"])
      case Some(c) => Failure(MissingColumn(c))
      case None =>
        Success(Some(KpiResult(param,
                               FloatNum(Divide(CoercedSum(f, n + "_24"), CoercedSum(f, d + "_24"))),
                               FloatNum(Divide(CoercedSum(f, n + "_25"), CoercedSum(f, d + "_25"))))))
  }

  /** `calc_active_users`: `None` when no row is selected; otherwise the first
      selected row's param with the plain totals of `total_active_user_24`
      and `total_active_user_25`, no division. */
  function CalcActiveUsers(t: KpiTable, sel: seq<string>): (r: Result<Option<KpiResult>, Error>)
    ensures r == Success(None) <==> forall i :: 0 <= i < |t.rows| ==> t.rows[i].product !in sel
    ensures r.Failure? ==> r.error.MissingColumn? && r.error.name !in t.columns
  {
    var f := SelectedRows(t.rows, sel);
    if |f| == 0 then Success(None)
    else
      match FirstMissing(t.columns, ["total_active_user_24", "total_active_user_25"])
      case Some(c) => Failure(MissingColumn(c))
      case None =>
        Success(Some(KpiResult(f[0].parameter,
                               ColumnTotal(f, "total_active_user_24"),
                               ColumnTotal(f, "total_active_user_25"))))
  }

  // ---------------------------------------------------------------------
  // Properties.

  /** The filtered rows' first row is the sheet's first selected row. */
  lemma {:induction false} SelectedRowsFirst(rows: seq<KpiRow>, sel: seq<string>)
    requires |SelectedRows(rows, sel)| > 0
    ensures exists i :: FirstSelectedAt(rows, sel, i) && SelectedRows(rows, sel)[0] == rows[i]
  {
    if rows[0].product in sel {
      assert FirstSelectedAt(rows, sel, 0);
    } else {
      SelectedRowsFirst(rows[1..], sel);
      var i :| FirstSelectedAt(rows[1..], sel, i) && SelectedRows(rows[1..], sel)[0] == rows[1..][i];
      assert FirstSelectedAt(rows, sel, i + 1);
    }
  }

  /** Summing the filtered rows is summing the selected rows of the sheet. */
  lemma {:induction false} SelectedRowsSum(rows: seq<KpiRow>, sel: seq<string>, c: string)
    ensures CoercedSum(SelectedRows(rows, sel), c) == SelectedSum(rows, sel, c)
  {
    if |rows| > 0 {
      SelectedRowsSum(rows[1..], sel, c);
      var rest := SelectedRows(rows[1..], sel);
      if rows[0].product in sel {
        assert SelectedRows(rows, sel) == [rows[0]] + rest;
        assert ([rows[0]] + rest)[1..] == rest;
      } else {
        assert SelectedRows(rows, sel) == rest;
      }
    }
  }

  /** `calc_avg` over the unfiltered sheet: the title is the first selected
      row's param and each year's value is Σnum/Σden over the selected rows,
      with the param's column pair; a non-numeric cell counts 0. */
  lemma CalcAvgValues(t: KpiTable, sel: seq<string>)
    requires CalcAvg(t, sel).Success? && CalcAvg(t, sel).value.Some?
    ensures var k := CalcAvg(t, sel).value.value;
            var (n, d) := Stems(k.title);
            && (exists i :: FirstSelectedAt(t.rows, sel, i) && k.title == t.rows[i].parameter)
            && k.v2024 == FloatNum(Divide(SelectedSum(t.rows, sel, n + "_24"), SelectedSum(t.rows, sel, d + "_24")))
            && k.v2025 == FloatNum(Divide(SelectedSum(t.rows, sel, n + "_25"), SelectedSum(t.rows, sel, d + "_25")))
  {
    var k := CalcAvg(t, sel).value.value;
    var (n, d) := Stems(k.title);
    SelectedRowsFirst(t.rows, sel);
    SelectedRowsSum(t.rows, sel, n + "_24");
    SelectedRowsSum(t.rows, sel, d + "_24");
    SelectedRowsSum(t.rows, sel, n + "_25");
    SelectedRowsSum(t.rows, sel, d + "_25");
  }

  /** `calc_avg` raises exactly when a row is selected and a column of the
      param's pair is absent. */
  lemma CalcAvgFails(t: KpiTable, sel: seq<string>)
    requires exists i :: 0 <= i < |t.rows| && t.rows[i].product in sel
    ensures var (n, d) := Stems(SelectedRows(t.rows, sel)[0].parameter);
            CalcAvg(t, sel).Failure? <==>
              !({n + "_24", d + "_24", n + "_25", d + "_25"} <= t.columns)
  {
    var (n, d) := Stems(SelectedRows(t.rows, sel)[0].parameter);
    var wanted := [n + "_24", d + "_24", n + "_25", d + "_25"];
    var all := wanted[0] in t.columns && wanted[1] in t.columns && wanted[2] in t.columns && wanted[3] in t.columns;
    assert FirstMissing(t.columns, wanted).None? <==> all;
    assert all <==> {n + "_24", d + "_24", n + "_25", d + "_25"} <= t.columns;
  }

  /** With a row selected, `calc_active_users` raises exactly when one of its
      two columns is absent. */
  lemma CalcActiveUsersFails(t: KpiTable, sel: seq<string>)
    requires exists i :: 0 <= i < |t.rows| && t.rows[i].product in sel
    ensures CalcActiveUsers(t, sel).Failure? <==>
              !({"total_active_user_24", "total_active_user_25"} <= t.columns)
  {
    var wanted := ["total_active_user_24", "total_active_user_25"];
    var all := wanted[0] in t.columns && wanted[1] in t.columns;
    assert FirstMissing(t.columns, wanted).None? <==> all;
    assert all <==> {"total_active_user_24", "total_active_user_25"} <= t.columns;
  }

  /** `calc_active_users` over the unfiltered sheet: plain totals of the
      selected rows, an `int64` exactly when every selected cell is an integer. */
  lemma CalcActiveUsersValues(t: KpiTable, sel: seq<string>)
    requires CalcActiveUsers(t, sel).Success? && CalcActiveUsers(t, sel).value.Some?
    ensures var k := CalcActiveUsers(t, sel).value.value;
            && (exists i :: FirstSelectedAt(t.rows, sel, i) && k.title == t.rows[i].parameter)
            && (k.v2024.IntNum? <==> AllIntegers(SelectedRows(t.rows, sel), "total_active_user_24"))
            && (k.v2024.IntNum? ==> k.v2024.i as real == SelectedSum(t.rows, sel, "total_active_user_24"))
            && (k.v2024.FloatNum? ==> k.v2024.f == Finite(SelectedSum(t.rows, sel, "total_active_user_24")))
            && (k.v2025.IntNum? <==> AllIntegers(SelectedRows(t.rows, sel), "total_active_user_25"))
            && (k.v2025.IntNum? ==> k.v2025.i as real == SelectedSum(t.rows, sel, "total_active_user_25"))
            && (k.v2025.FloatNum? ==> k.v2025.f == Finite(SelectedSum(t.rows, sel, "total_active_user_25")))
  {
    SelectedRowsFirst(t.rows, sel);
    SelectedRowsSum(t.rows, sel, "total_active_user_24");
    SelectedRowsSum(t.rows, sel, "total_active_user_25");
  }

  /** A non-numeric cell sums as if it held 0: making cell `c` of row `k`
      non-numeric takes exactly that cell's value out of the total. */
  lemma {:induction false} NonNumericCountsZero(rows: seq<KpiRow>, k: nat, c: string)
    requires k < |rows|
    ensures CoercedSum(rows[k := rows[k].(cells := rows[k].cells[c := NonNumeric])], c)
            == CoercedSum(rows, c) - NumericValue(CellAt(rows[k], c))
    ensures CoercedSum(rows[k := rows[k].(cells := rows[k].cells[c := NonNumeric])], c)
            == CoercedSum(rows[k := rows[k].(cells := rows[k].cells[c := FloatCell(0.0)])], c)
  {
    var blanked := rows[k := rows[k].(cells := rows[k].cells[c := NonNumeric])];
    var zeroed := rows[k := rows[k].(cells := rows[k].cells[c := FloatCell(0.0)])];
    if k == 0 {
      assert blanked[1..] == rows[1..] && zeroed[1..] == rows[1..];
    } else {
      NonNumericCountsZero(rows[1..], k - 1, c);
      assert blanked[1..] == rows[1..][k - 1 := rows[k].(cells := rows[k].cells[c := NonNumeric])];
      assert zeroed[1..] == rows[1..][k - 1 := rows[k].(cells := rows[k].cells[c := FloatCell(0.0)])];
    }
  }

  /** The param table: every known param divides by `total_eid`, "Avg
      Activity / User" and "Avg Tests / User" share their numerator, and an
      unknown param yields the empty stems. */
  lemma StemsTable(param: string)
    ensures (param in {"Score Gain", "Avg Activity / User", "Avg Questions Answered / User", "Avg Tests / User"})
              ==> Stems(param).1 == "total_eid" && Stems(param).0 != ""
    ensures (param !in {"Score Gain", "Avg Activity / User", "Avg Questions Answered / User", "Avg Tests / User"})
              ==> Stems(param) == ("", "")
    ensures Stems("Avg Activity / User") == Stems("Avg Tests / User")
  {
  }
}

=== FILE: reshape.dfy ===
/** The tidy reshaper in front of every line chart: pandas `melt` of the
    per-year columns into one row per (bucket, year), with the `Year` label
    taken as the text after the last `_` of the column name. */
module Reshape {

  import opened Wrappers
  import opened Seqs
  import opened Text
  import opened Floats
  import opened Tables
  import opened RatioAggregator

  /** One long-form row: bucket label, year label and value. */
  datatype TidyRow = TidyRow(bucket: string, year: string, value: OutCell)

  /** Cell `c` of an aggregated row; a cell the row lacks is NaN. */
  function CellOf(r: AggRow, c: string): OutCell {
    if c in r.cells then r.cells[c] else Val(NaN)
  }

  /** The rows melt stacks for one value column. */
  function Block(rows: seq<AggRow>, col: string): (b: seq<TidyRow>)
    ensures |b| == |rows|
  {
    seq(|rows|, i requires 0 <= i < |rows| => TidyRow(rows[i].bucket, LastSegment(col, '_'), CellOf(rows[i], col)))
  }

  /** `melt` stacks one block per value column, column after column. */
  function MeltRows(rows: seq<AggRow>, cols: seq<string>): (r: seq<TidyRow>)
    ensures |r| == |cols| * |rows|
  {
    if |cols| == 0 then []
    else MeltRows(rows, cols[..|cols| - 1]) + Block(rows, cols[|cols| - 1])
  }

  /** `df.melt(id_vars=idVar, value_vars=valueVars)` followed by the `Year`
      split; a `KeyError` when the id column or a value column is absent. */
  function Melt(f: Frame, idVar: string, valueVars: seq<string>): (r: Result<seq<TidyRow>, Error>)
    ensures r.Success? <==> idVar == f.keyColumn && forall j :: 0 <= j < |valueVars| ==> valueVars[j] in f.columns
    ensures r.Failure? ==> r.error.MissingColumn?
  {
    if idVar != f.keyColumn then Failure(MissingColumn(idVar))
    else
      match FirstMissing(f.columns, valueVars)
      case Some(c) => Failure(MissingColumn(c))
      case None => Success(MeltRows(f.rows, valueVars))
  }

  /** The value columns `create_metric_chart` builds: `f'{metric_prefix}_{yr}'` per year. */
  function ValueColumns(metricPrefix: string): (cols: seq<string>)
    ensures |cols| == |Years|
    ensures forall j :: 0 <= j < |Years| ==> cols[j] == YearColumn(metricPrefix, Years[j])
  {
    seq(|Years|, j requires 0 <= j < |Years| => YearColumn(metricPrefix, Years[j]))
  }

  /** The long table of `create_metric_chart`. */
  function MetricChartData(f: Frame, monthPrefix: string, metricPrefix: string): (r: Result<seq<TidyRow>, Error>)
    ensures r.Success? <==>
              monthPrefix == f.keyColumn && forall y :: y in Years ==> YearColumn(metricPrefix, y) in f.columns
    ensures r.Success? ==> |r.value| == 3 * |f.rows|
  {
    Melt(f, monthPrefix, ValueColumns(metricPrefix))
  }

  /** The score-gain chart's melt, with its value columns written out. */
  function ScoreGainData(f: Frame): (r: Result<seq<TidyRow>, Error>)
    ensures r.Success? <==>
              && f.keyColumn == "Expiry_month"
              && "Score_gain_2023" in f.columns && "Score_gain_2024" in f.columns && "Score_gain_2025" in f.columns
    ensures r.Success? ==> |r.value| == 3 * |f.rows|
  {
    var cols := ["Score_gain_2023", "Score_gain_2024", "Score_gain_2025"];
    assert (forall j :: 0 <= j < |cols| ==> cols[j] in f.columns)
             <==> cols[0] in f.columns && cols[1] in f.columns && cols[2] in f.columns;
    Melt(f, "Expiry_month", cols)
  }

  // ---------------------------------------------------------------------
  // Properties.

  /** Every long row comes from some input row and some value column. */
  lemma {:induction false} MeltRowsFrom(rows: seq<AggRow>, cols: seq<string>, k: nat)
    requires k < |MeltRows(rows, cols)|
    ensures exists j, i :: 0 <= j < |cols| && 0 <= i < |rows|
              && MeltRows(rows, cols)[k] == TidyRow(rows[i].bucket, LastSegment(cols[j], '_'), CellOf(rows[i], cols[j]))
  {
    var p := cols[..|cols| - 1];
    var front := MeltRows(rows, p);
    if k < |front| {
      MeltRowsFrom(rows, p, k);
      var j, i :| 0 <= j < |p| && 0 <= i < |rows|
                  && front[k] == TidyRow(rows[i].bucket, LastSegment(p[j], '_'), CellOf(rows[i], p[j]));
      assert p[j] == cols[j];
    } else {
      var i := k - |front|;
      assert MeltRows(rows, cols)[k] == Block(rows, cols[|cols| - 1])[i];
    }
  }

  /** A year column's label is the year itself. */
  lemma YearLabel(stem: string, y: nat)
    ensures LastSegment(YearColumn(stem, y), '_') == NatToString(y)
  {
    assert '_' !in NatToString(y) by {
      assert AllDigits(NatToString(y));
    }
    assert YearColumn(stem, y) == stem + ['_'] + NatToString(y);
    LastSegmentAfter(stem, '_', NatToString(y));
  }

  /** Melting three value columns stacks their three blocks. */
  lemma MeltThree(rows: seq<AggRow>, cols: seq<string>)
    requires |cols| == 3
    ensures MeltRows(rows, cols) == Block(rows, cols[0]) + Block(rows, cols[1]) + Block(rows, cols[2])
  {
    assert cols[..2][..1] == cols[..1] && cols[..1][..0] == [];
    assert MeltRows(rows, cols[..1]) == Block(rows, cols[0]);
  }

  /** The chart row for input row `i` under year `Years[j]`. */
  function ChartRow(f: Frame, metricPrefix: string, j: nat, i: nat): TidyRow
    requires j < |Years| && i < |f.rows|
  {
    TidyRow(f.rows[i].bucket, NatToString(Years[j]), CellOf(f.rows[i], YearColumn(metricPrefix, Years[j])))
  }

  /** The chart rows of year `Years[j]`, one per input row, in row order. */
  function ChartBlock(f: Frame, metricPrefix: string, j: nat): (b: seq<TidyRow>)
    requires j < |Years|
    ensures |b| == |f.rows|
    ensures forall i :: 0 <= i < |f.rows| ==> b[i] == ChartRow(f, metricPrefix, j, i)
  {
    seq(|f.rows|, i requires 0 <= i < |f.rows| => ChartRow(f, metricPrefix, j, i))
  }

  /** The block melt stacks for one year column is that year's chart block. */
  lemma YearBlock(f: Frame, metricPrefix: string, j: nat)
    requires j < |Years|
    ensures Block(f.rows, YearColumn(metricPrefix, Years[j])) == ChartBlock(f, metricPrefix, j)
  {
    YearLabel(metricPrefix, Years[j]);
  }

  /** The chart table of an N-row frame has 3N rows, one per (bucket, year)
      pair, year-major as melt stacks them: rows 0..N-1 are 2023, rows
      N..2N-1 are 2024 and rows 2N..3N-1 are 2025, each labelled with its
      year and holding that bucket's cell for that year. */
  lemma MetricChartShape(f: Frame, monthPrefix: string, metricPrefix: string)
    requires MetricChartData(f, monthPrefix, metricPrefix).Success?
    ensures var long := MetricChartData(f, monthPrefix, metricPrefix).value;
            && |long| == 3 * |f.rows|
            && long == ChartBlock(f, metricPrefix, 0) + ChartBlock(f, metricPrefix, 1) + ChartBlock(f, metricPrefix, 2)
  {
    var cols := ValueColumns(metricPrefix);
    MeltThree(f.rows, cols);
    assert cols[0] == YearColumn(metricPrefix, Years[0]);
    assert cols[1] == YearColumn(metricPrefix, Years[1]);
    assert cols[2] == YearColumn(metricPrefix, Years[2]);
    YearBlock(f, metricPrefix, 0);
    YearBlock(f, metricPrefix, 1);
    YearBlock(f, metricPrefix, 2);
  }

  /** The bucket labels of an aggregated table, row by row. */
  function FrameBuckets(rows: seq<AggRow>): (r: seq<string>)
    ensures |r| == |rows| && forall i :: 0 <= i < |rows| ==> r[i] == rows[i].bucket
  {
    seq(|rows|, i requires 0 <= i < |rows| => rows[i].bucket)
  }

  /** Every chart row pairs a bucket of the frame with one of the three year
      labels: melt adds no bucket and no year of its own. */
  lemma MetricChartLabels(f: Frame, monthPrefix: string, metricPrefix: string, k: nat)
    requires MetricChartData(f, monthPrefix, metricPrefix).Success?
    requires k < |MetricChartData(f, monthPrefix, metricPrefix).value|
    ensures MetricChartData(f, monthPrefix, metricPrefix).value[k].bucket in FrameBuckets(f.rows)
    ensures MetricChartData(f, monthPrefix, metricPrefix).value[k].year in ["2023", "2024", "2025"]
  {
    var cols := ValueColumns(metricPrefix);
    var long := MeltRows(f.rows, cols);
    assert MetricChartData(f, monthPrefix, metricPrefix).value == long;
    MeltRowsFrom(f.rows, cols, k);
    var j, i :| 0 <= j < |cols| && 0 <= i < |f.rows|
                && long[k] == TidyRow(f.rows[i].bucket, LastSegment(cols[j], '_'), CellOf(f.rows[i], cols[j]));
    assert FrameBuckets(f.rows)[i] == long[k].bucket;
    assert cols[j] == YearColumn(metricPrefix, Years[j]);
    YearLabelKnown(metricPrefix, j);
  }

  /** The label of a year column of `Years` is one of the three year texts. */
  lemma YearLabelKnown(stem: string, j: nat)
    requires j < |Years|
    ensures LastSegment(YearColumn(stem, Years[j]), '_') in ["2023", "2024", "2025"]
  {
    YearLabel(stem, Years[j]);
    YearTexts();
    if j == 0 {
      assert NatToString(Years[j]) == "2023";
    } else if j == 1 {
      assert NatToString(Years[j]) == "2024";
    } else {
      assert NatToString(Years[j]) == "2025";
    }
  }

  /** The decimal texts of the three years. */
  lemma YearTexts()
    ensures NatToString(2023) == "2023" && NatToString(2024) == "2024" && NatToString(2025) == "2025"
  {
    assert NatToString(2) == "2" && NatToString(20) == "20" && NatToString(202) == "202";
  }

  /** The score-gain chart's literal column list is the per-year template of
      its ratio stem, so it is the generic chart reshape. */
  lemma ScoreGainIsMetricChart(f: Frame)
    ensures ScoreGainData(f) == MetricChartData(f, "Expiry_month", "Score_gain")
  {
    YearTexts();
    var cols := ValueColumns("Score_gain");
    assert cols[0] == "Score_gain" + "_" + "2023" == "Score_gain_2023";
    assert cols[1] == "Score_gain" + "_" + "2024" == "Score_gain_2024";
    assert cols[2] == "Score_gain" + "_" + "2025" == "Score_gain_2025";
    assert cols == ["Score_gain_2023", "Score_gain_2024", "Score_gain_2025"];
  }

  /** The whole chart pipeline: for a sheet aggregated without error and
      reshaped on the aggregator's ratio stem, the reshape cannot fail, and
      the chart row of bucket `i` and year `j` (placed by `MetricChartShape`)
      holds the selected rows' numerator total over their denominator total
      for that bucket and year (0 or blank when the bucket has no selected
      row). */
  lemma ChartPipeline(t: MetricTable, sel: seq<string>, keyColumn: string, naming: Naming, policy: ZeroPolicy,
                      j: nat, i: nat)
    requires keyColumn == t.bucketColumn && ColumnsPresent(t, naming)
    requires j < 3 && i < |Unique(Buckets(t.rows))|
    ensures var f := Aggregate(t, sel, keyColumn, naming, policy).value;
            var b := f.rows[i].bucket;
            var y := Years[j];
            && MetricChartData(f, keyColumn, naming.ratio).Success?
            && ChartRow(f, naming.ratio, j, i) ==
                 TidyRow(b, NatToString(y),
                         Settle(if HasSelected(t.rows, sel, b)
                                then Divide(SelectedBucketSum(t.rows, sel, b, YearColumn(naming.numerator, y)),
                                            SelectedBucketSum(t.rows, sel, b, YearColumn(naming.denominator, y)))
                                else NaN, policy))
  {
    var f := Aggregate(t, sel, keyColumn, naming, policy).value;
    var cols := ValueColumns(naming.ratio);
    forall k | 0 <= k < |cols|
      ensures cols[k] in f.columns
    {
      assert cols[k] == YearColumn(naming.ratio, Years[k]);
      assert Years[k] in Years && naming.ratio in {naming.denominator, naming.numerator, naming.ratio};
      assert cols[k] in OutputColumns(naming, Years);
    }
    AggregateRatio(t, sel, keyColumn, naming, policy, i, Years[j]);
  }
}

=== FILE: selection.dfy ===
/** The product selection of the dashboard's session: seeding, the Select
    All / Clear All buttons with their independent 0.5 s debounce timers, the
    multiselect callback, the count-based filter status line and the month
    shown above the KPI cards. Clock reads are parameters: `now` is the
    run's `time.time()` and `stamp` the `int(time.time()*1000)` of a click. */
module Selection {

  import opened Wrappers
  import opened Seqs
  import opened Text
  import opened Sorting
  import opened Tables

  /** The per-button debounce window, in seconds. */
  const Debounce: real := 0.5

  /** The session state the selection uses; `None` is a key absent from
      `st.session_state`. `widgetValues` holds the values Streamlit stores
      under widget keys. */
  datatype Session = Session(
    selected: Option<seq<string>>,
    lastSelectAll: Option<real>,
    lastClearAll: Option<real>,
    multiselectKey: Option<string>,
    widgetValues: map<string, seq<string>>)

  /** The non-null codes of the `product_code` column, in row order
      (`dropna()`). */
  function Present(codes: seq<Option<string>>): (r: seq<string>)
    ensures forall x :: x in r <==> Some(x) in codes
  {
    if |codes| == 0 then []
    else
      var p := Present(codes[..|codes| - 1]);
      assert codes == codes[..|codes| - 1] + [codes[|codes| - 1]];
      if codes[|codes| - 1].Some? then p + [codes[|codes| - 1].value] else p
  }

  /** app.py:115-118: with no selection yet, select every distinct non-null
      code in first-appearance order (`[]` when there is none); an existing
      selection is kept. */
  function Seed(s: Session, codes: seq<Option<string>>): (r: Session)
    ensures s.selected.Some? ==> r == s
    ensures s.selected.None? ==> r == s.(selected := r.selected)
    ensures r.selected.Some?
    ensures s.selected.None? ==>
              NoDup(r.selected.value) && forall x :: x in r.selected.value <==> Some(x) in codes
  {
    if s.selected.None? then s.(selected := Some(Unique(Present(codes)))) else s
  }

  /** app.py:132, `sorted(col.unique())`: a null among other codes cannot be
      compared with a string, so sorting raises. */
  function AllProducts(codes: seq<Option<string>>): (r: Result<seq<string>, Error>)
    ensures r.Failure? <==> None in codes
    ensures r.Failure? ==> r.error == UnorderableCodes
    ensures r.Success? ==> StrictlySorted(r.value) && forall x :: x in r.value <==> Some(x) in codes
  {
    if None in codes then Failure(UnorderableCodes)
    else
      var u := Unique(Present(codes));
      SortDistinct(u);
      var r := Sort(u);
      assert forall x :: x in r <==> x in multiset(u);
      Success(r)
  }

  /** app.py:137-140: a timer never set reads 0. */
  function InitTimers(s: Session): (r: Session)
    ensures r.lastSelectAll.Some? && r.lastClearAll.Some?
    ensures s.lastSelectAll.Some? ==> r.lastSelectAll == s.lastSelectAll
    ensures s.lastClearAll.Some? ==> r.lastClearAll == s.lastClearAll
    ensures r.selected == s.selected && r.multiselectKey == s.multiselectKey && r.widgetValues == s.widgetValues
  {
    s.(lastSelectAll := Some(s.lastSelectAll.GetOr(0.0)), lastClearAll := Some(s.lastClearAll.GetOr(0.0)))
  }

  /** A button is disabled while less than the debounce window has passed
      since its own last click. */
  predicate Disabled(last: Option<real>, now: real) {
    now - last.GetOr(0.0) < Debounce
  }

  const SelectAllKeyPrefix: string := "multiselect_selectall_"
  const ClearAllKeyPrefix: string := "multiselect_clearall_"
  const InitialKey: string := "multiselect_initial"

  /** A Select All click in the run at time `now` (app.py:150-156). */
  function PressSelectAll(s: Session, codes: seq<Option<string>>, now: real, stamp: nat): (r: Result<Session, Error>)
    ensures r.Failure? <==> None in codes
    ensures r.Success? && Disabled(s.lastSelectAll, now) ==> r.value == InitTimers(s)
    ensures r.Success? && !Disabled(s.lastSelectAll, now) ==>
              && r.value.selected == Some(AllProducts(codes).value)
              && r.value.multiselectKey == Some(SelectAllKeyPrefix + NatToString(stamp))
              && r.value.lastSelectAll == Some(now)
    ensures r.Success? ==> r.value.lastClearAll == InitTimers(s).lastClearAll && r.value.widgetValues == s.widgetValues
  {
    match AllProducts(codes)
    case Failure(e) => Failure(e)
    case Success(all) =>
      var t := InitTimers(s);
      if Disabled(t.lastSelectAll, now) then Success(t)
      else Success(t.(selected := Some(all),
                      multiselectKey := Some(SelectAllKeyPrefix + NatToString(stamp)),
                      lastSelectAll := Some(now)))
  }

  /** A Clear All click in the run at time `now` (app.py:159-165); the panel
      computes the sorted codes first, so it fails on the same input. */
  function PressClearAll(s: Session, codes: seq<Option<string>>, now: real, stamp: nat): (r: Result<Session, Error>)
    ensures r.Failure? <==> None in codes
    ensures r.Success? && Disabled(s.lastClearAll, now) ==> r.value == InitTimers(s)
    ensures r.Success? && !Disabled(s.lastClearAll, now) ==>
              && r.value.selected == Some([])
              && r.value.multiselectKey == Some(ClearAllKeyPrefix + NatToString(stamp))
              && r.value.lastClearAll == Some(now)
    ensures r.Success? ==> r.value.lastSelectAll == InitTimers(s).lastSelectAll && r.value.widgetValues == s.widgetValues
  {
    match AllProducts(codes)
    case Failure(e) => Failure(e)
    case Success(_) =>
      var t := InitTimers(s);
      if Disabled(t.lastClearAll, now) then Success(t)
      else Success(t.(selected := Some([]),
                      multiselectKey := Some(ClearAllKeyPrefix + NatToString(stamp)),
                      lastClearAll := Some(now)))
  }

  /** app.py:168-169: the widget key defaults to the initial key. */
  function EnsureKey(s: Session): (r: Session)
    ensures r.multiselectKey.Some?
    ensures s.multiselectKey.Some? ==> r == s
    ensures s.multiselectKey.None? ==> r == s.(multiselectKey := Some(InitialKey))
  {
    if s.multiselectKey.None? then s.(multiselectKey := Some(InitialKey)) else s
  }

  /** `on_multiselect_change` (app.py:172-179): copy the value stored under
      the current widget key into the selection; keep the selection when no
      value is stored there. Reading an unset `multiselect_key` raises. */
  function OnMultiselectChange(s: Session): (r: Result<Session, Error>)
    ensures r.Failure? <==> s.multiselectKey.None?
    ensures r.Failure? ==> r.error == MissingStateKey("multiselect_key")
    ensures r.Success? ==> r.value == s.(selected := r.value.selected)
    ensures r.Success? && s.multiselectKey.value in s.widgetValues ==>
              r.value.selected == Some(s.widgetValues[s.multiselectKey.value])
    ensures r.Success? && s.multiselectKey.value !in s.widgetValues ==> r.value == s
  {
    match s.multiselectKey
    case None => Failure(MissingStateKey("multiselect_key"))
    case Some(k) =>
      if k in s.widgetValues then Success(s.(selected := Some(s.widgetValues[k]))) else Success(s)
  }

  /** The user changes the widget stored under `widgetKey` to `value`:
      Streamlit stores the value, then runs the callback. */
  function WidgetChanged(s: Session, widgetKey: string, value: seq<string>): (r: Result<Session, Error>)
    ensures r.Failure? <==> s.multiselectKey.None?
    ensures r.Success? ==> r.value.widgetValues == s.widgetValues[widgetKey := value]
  {
    OnMultiselectChange(s.(widgetValues := s.widgetValues[widgetKey := value]))
  }

  /** The number the status compares against: distinct values of the
      `product_code` column, a null counting as one more value. */
  function TotalCount(codes: seq<Option<string>>): (n: nat)
    ensures n == |set c | c in codes|
    ensures n <= |codes|
    ensures |codes| > 0 ==> n > 0
  {
    DistinctValues(codes);
    if |codes| > 0 then assert codes[0] in Unique(codes); |Unique(codes)| else |Unique(codes)|
  }

  /** `unique()` keeps one entry per distinct value. */
  lemma DistinctValues<T>(s: seq<T>)
    ensures |Unique(s)| == |set c | c in s|
  {
    var u := Unique(s);
    CardOfNoDup(u);
    assert (set i | 0 <= i < |u| :: u[i]) == (set c | c in s) by {
      forall c | c in s
        ensures c in (set i | 0 <= i < |u| :: u[i])
      {
        var i :| 0 <= i < |u| && u[i] == c;
      }
    }
  }

  datatype Status = Status(text: string, color: string)

  const AllColor: string := "#00923D"
  const NoneColor: string := "#F57411"
  const SomeColor: string := "#0016A8"

  /** app.py:196-213: the status line, chosen by the selection's length alone. */
  function FilterStatus(sel: seq<string>, total: nat): (r: Status)
    ensures (r.text == "All Products Selected") <==> |sel| == total
    ensures (r.text == "No Products Selected") <==> |sel| == 0 && total != 0
    ensures r.color == AllColor <==> |sel| == total
    ensures r.color == NoneColor <==> |sel| == 0 && total != 0
  {
    if |sel| == total then Status("All Products Selected", AllColor)
    else if |sel| == 0 then Status("No Products Selected", NoneColor)
    else
      var shown := if |sel| <= 3 then Join(sel, ", ") else Join(sel[..2], ", ") + " and " + NatToString(|sel| - 2) + " more";
      assert ("Selected: " + shown)[0] == 'S';
      Status("Selected: " + shown, SomeColor)
  }

  /** A month number. */
  type Month = m: int | 1 <= m <= 12 witness 1

  /** app.py:9: the previous month, January going back to December. */
  function PrevMonth(m: Month): (r: Month)
    ensures r % 12 + 1 == m
  {
    if m > 1 then m - 1 else 12
  }

  /** `calendar.month_name[m]`. */
  function MonthName(m: Month): string {
    ["January", "February", "March", "April", "May", "June", "July",
     "August", "September", "October", "November", "December"][m - 1]
  }

  // ---------------------------------------------------------------------
  // Properties.

  /** Seeding twice is seeding once. */
  lemma SeedIdempotent(s: Session, codes: seq<Option<string>>)
    ensures Seed(Seed(s, codes), codes) == Seed(s, codes)
  {
  }

  /** The seeded selection lists the non-null codes in the order of their
      first row. */
  lemma SeedOrder(s: Session, codes: seq<Option<string>>)
    requires s.selected.None?
    ensures var sel := Seed(s, codes).selected.value;
            forall i, j :: 0 <= i < j < |sel| ==>
              FirstIndex(Present(codes), sel[i]) < FirstIndex(Present(codes), sel[j])
  {
    UniqueFirstAppearance(Present(codes));
  }

  /** A click inside its own button's window changes nothing beyond
      initializing the timers; in particular a second Select All within
      0.5 s of an effective one leaves the session as it was. */
  lemma DebouncedRepeat(s: Session, codes: seq<Option<string>>, t1: real, t2: real, stamp1: nat, stamp2: nat)
    requires None !in codes
    requires !Disabled(s.lastSelectAll, t1) && t1 <= t2 < t1 + Debounce
    ensures PressSelectAll(PressSelectAll(s, codes, t1, stamp1).value, codes, t2, stamp2)
            == PressSelectAll(s, codes, t1, stamp1)
  {
    var s1 := PressSelectAll(s, codes, t1, stamp1).value;
    assert Disabled(s1.lastSelectAll, t2);
    assert InitTimers(s1) == s1;
  }

  /** Select All followed by Clear All empties the selection whenever Clear
      All's own window has passed: Select All never touches Clear All's
      timer, however soon the second click comes. */
  lemma SelectAllThenClearAll(s: Session, codes: seq<Option<string>>, t1: real, t2: real, stamp1: nat, stamp2: nat)
    requires None !in codes
    requires !Disabled(s.lastClearAll, t2)
    ensures var s1 := PressSelectAll(s, codes, t1, stamp1).value;
            PressClearAll(s1, codes, t2, stamp2).value.selected == Some([])
  {
    var s1 := PressSelectAll(s, codes, t1, stamp1).value;
    assert s1.lastClearAll.GetOr(0.0) == s.lastClearAll.GetOr(0.0);
  }

  /** Clear All followed by Select All selects every code whenever Select
      All's own window has passed. */
  lemma ClearAllThenSelectAll(s: Session, codes: seq<Option<string>>, t1: real, t2: real, stamp1: nat, stamp2: nat)
    requires None !in codes
    requires !Disabled(s.lastSelectAll, t2)
    ensures var s1 := PressClearAll(s, codes, t1, stamp1).value;
            var sel := PressSelectAll(s1, codes, t2, stamp2).value.selected.value;
            StrictlySorted(sel) && forall x :: x in sel <==> Some(x) in codes
  {
    var s1 := PressClearAll(s, codes, t1, stamp1).value;
    assert s1.lastSelectAll.GetOr(0.0) == s.lastSelectAll.GetOr(0.0);
  }

  /** Every effective button click installs a widget key no earlier key
      equals: the two buttons' keys differ, and so do keys of different
      clicks. */
  lemma KeysRotate(a: nat, b: nat)
    ensures SelectAllKeyPrefix + NatToString(a) != ClearAllKeyPrefix + NatToString(b)
    ensures SelectAllKeyPrefix + NatToString(a) != InitialKey
    ensures ClearAllKeyPrefix + NatToString(b) != InitialKey
    ensures a != b ==> SelectAllKeyPrefix + NatToString(a) != SelectAllKeyPrefix + NatToString(b)
    ensures a != b ==> ClearAllKeyPrefix + NatToString(a) != ClearAllKeyPrefix + NatToString(b)
  {
    assert (SelectAllKeyPrefix + NatToString(a))[12] == 's';
    assert (ClearAllKeyPrefix + NatToString(b))[12] == 'c';
    assert InitialKey[12] == 'i';
    assert NatToString(a) == (SelectAllKeyPrefix + NatToString(a))[|SelectAllKeyPrefix|..];
    assert NatToString(b) == (SelectAllKeyPrefix + NatToString(b))[|SelectAllKeyPrefix|..];
    assert NatToString(a) == (ClearAllKeyPrefix + NatToString(a))[|ClearAllKeyPrefix|..];
    assert NatToString(b) == (ClearAllKeyPrefix + NatToString(b))[|ClearAllKeyPrefix|..];
    NatToStringInjective(a, b);
  }

  /** A change of the current widget replaces the selection with the chosen
      codes; a change recorded under a stale key leaves the selection as it
      was unless the current key already holds a value. */
  lemma WidgetChangeEffect(s: Session, widgetKey: string, value: seq<string>)
    requires s.multiselectKey.Some?
    ensures widgetKey == s.multiselectKey.value ==>
              WidgetChanged(s, widgetKey, value).value.selected == Some(value)
    ensures widgetKey != s.multiselectKey.value && s.multiselectKey.value !in s.widgetValues ==>
              WidgetChanged(s, widgetKey, value).value.selected == s.selected
  {
  }

  /** After the panel has set its key, the callback never fails. */
  lemma CallbackAfterEnsureKey(s: Session)
    ensures OnMultiselectChange(EnsureKey(s)).Success?
  {
  }

  /** With three codes or fewer (not all, not none) the status names every
      selected code. */
  lemma StatusNamesFew(sel: seq<string>, total: nat, i: nat)
    requires 0 < |sel| <= 3 && |sel| != total && i < |sel|
    ensures IsInfix(sel[i], FilterStatus(sel, total).text)
    ensures FilterStatus(sel, total).color == SomeColor
  {
    var j := Join(sel, ", ");
    JoinContainsParts(sel, ", ", i);
    var k :| OccursAt(sel[i], j, k);
    var text := "Selected: " + j;
    assert text[10 + k..10 + k + |sel[i]|] == j[k..k + |sel[i]|];
    assert OccursAt(sel[i], text, 10 + k);
  }

  /** With more than three codes (not all) the status names the first two
      and ends with the count of the rest, which reads back as `count - 2`. */
  lemma StatusSummarizesMany(sel: seq<string>, total: nat)
    requires |sel| > 3 && |sel| != total
    ensures var text := FilterStatus(sel, total).text;
            var tail := NatToString(|sel| - 2) + " more";
            && IsInfix(sel[0], text) && IsInfix(sel[1], text)
            && |text| >= |tail| && text[|text| - |tail|..] == tail
            && ParseDigits(NatToString(|sel| - 2)) == |sel| - 2
  {
    var j := Join(sel[..2], ", ");
    var tail := NatToString(|sel| - 2) + " more";
    var text := FilterStatus(sel, total).text;
    assert text == "Selected: " + j + (" and " + tail);
    PartInText(sel[..2], 0, "Selected: ", " and " + tail);
    PartInText(sel[..2], 1, "Selected: ", " and " + tail);
    assert text == ("Selected: " + j + " and ") + tail;
    ParseNatToString(|sel| - 2);
  }

  /** A part of a comma-joined list occurs in any text that embeds the list. */
  lemma PartInText(parts: seq<string>, i: nat, pre: string, post: string)
    requires i < |parts|
    ensures IsInfix(parts[i], pre + Join(parts, ", ") + post)
  {
    var j := Join(parts, ", ");
    JoinContainsParts(parts, ", ", i);
    var k :| OccursAt(parts[i], j, k);
    OccursInContext(parts[i], j, k, pre, post);
  }

  /** The status compares counts, not sets: a selection of the right length
      reads "All Products Selected" even when it misses a code. */
  lemma StatusCountsOnly()
    ensures FilterStatus(["A", "A"], TotalCount([Some("A"), Some("B")])).text == "All Products Selected"
  {
    assert Unique([Some("A"), Some("B")][..1]) == [Some("A")];
    assert Unique([Some("A"), Some("B")]) == [Some("A"), Some("B")];
  }

  /** A null code counts towards the total but never enters the seeded
      selection, so a freshly seeded session with a null code and a real one
      does not read "All Products Selected". */
  lemma SeedWithNullNotAll(s: Session, codes: seq<Option<string>>)
    requires s.selected.None? && None in codes
    ensures |Seed(s, codes).selected.value| < TotalCount(codes)
  {
    var sel := Seed(s, codes).selected.value;
    var u := Unique(codes);
    // Every seeded code appears as `Some` in the distinct column values, and
    // the null value is one more.
    var lifted := seq(|sel|, i requires 0 <= i < |sel| => Some(sel[i]));
    assert forall i :: 0 <= i < |lifted| ==> lifted[i] in u;
    assert None in u;
    DistinctSubsetSize(lifted + [None], u);
  }

  /** A duplicate-free sequence whose values all occur in `u` is no longer
      than `Unique`'s output over those values. */
  lemma DistinctSubsetSize<T>(a: seq<T>, u: seq<T>)
    requires NoDup(a) && forall i :: 0 <= i < |a| ==> a[i] in u
    ensures |a| <= |u|
  {
    var sa := set i | 0 <= i < |a| :: a[i];
    var su := set i | 0 <= i < |u| :: u[i];
    assert sa <= su;
    SubsetCard(sa, su);
    CardOfNoDup(a);
    CardAtMost(u);
  }

  lemma SubsetCard<T>(a: set<T>, b: set<T>)
    requires a <= b
    ensures |a| <= |b|
  {
    assert b == a + (b - a);
  }

  lemma {:induction false} CardOfNoDup<T>(a: seq<T>)
    requires NoDup(a)
    ensures |set i | 0 <= i < |a| :: a[i]| == |a|
  {
    if |a| > 0 {
      var p := a[..|a| - 1];
      CardOfNoDup(p);
      var sp := set i | 0 <= i < |p| :: p[i];
      assert (set i | 0 <= i < |a| :: a[i]) == sp + {a[|a| - 1]};
      assert a[|a| - 1] !in sp;
    }
  }

  lemma {:induction false} CardAtMost<T>(u: seq<T>)
    ensures |set i | 0 <= i < |u| :: u[i]| <= |u|
  {
    if |u| > 0 {
      var p := u[..|u| - 1];
      CardAtMost(p);
      assert (set i | 0 <= i < |u| :: u[i]) == (set i | 0 <= i < |p| :: p[i]) + {u[|u| - 1]};
    }
  }

  /** Stepping back a month and forward again returns the month, and the
      step back from January is December. */
  lemma PrevMonthInverse(m: Month)
    ensures PrevMonth(m) % 12 + 1 == m
    ensures PrevMonth(1) == 12 && MonthName(PrevMonth(1)) == "December"
    ensures m > 1 ==> MonthName(PrevMonth(m)) == MonthName(m - 1)
  {
  }
}

=== FILE: seqs.dfy ===
/** Sequence helpers shared by the model: pandas' `unique()` (distinct values
    in first-appearance order) and duplicate-freedom. */
module Seqs {

  /** No value occurs twice in `s`. */
  predicate NoDup<T(==)>(s: seq<T>) {
    forall i, j :: 0 <= i < j < |s| ==> s[i] != s[j]
  }

  /** Index of the first occurrence of `x` in `s`. */
  function FirstIndex<T(==)>(s: seq<T>, x: T): (k: nat)
    requires x in s
    ensures k < |s| && s[k] == x
    ensures x !in s[..k]
  {
    if s[0] == x then 0 else 1 + FirstIndex(s[1..], x)
  }

  /** The first index is the only index that holds `x` with no earlier copy. */
  lemma FirstIndexUnique<T>(s: seq<T>, x: T, k: nat)
    requires k < |s| && s[k] == x && x !in s[..k]
    ensures FirstIndex(s, x) == k
  {
    var f := FirstIndex(s, x);
    assert forall i :: 0 <= i < k ==> s[..k][i] == s[i];
    assert forall i :: 0 <= i < f ==> s[..f][i] == s[i];
  }

  /** pandas `Series.unique()`: each distinct value once, in the order of its
      first appearance. */
  function Unique<T(==)>(s: seq<T>): (r: seq<T>)
    ensures NoDup(r)
    ensures forall i :: 0 <= i < |r| ==> r[i] in s
    ensures forall i :: 0 <= i < |s| ==> s[i] in r
    ensures |r| <= |s|
  {
    if |s| == 0 then []
    else
      var u := Unique(s[..|s| - 1]);
      var last := s[|s| - 1];
      if last in u then u else u + [last]
  }

  /** The values of `Unique(s)` appear in the order of their first
      appearance in `s`. */
  lemma {:induction false} UniqueFirstAppearance<T>(s: seq<T>)
    ensures forall i, j :: 0 <= i < j < |Unique(s)| ==>
              FirstIndex(s, Unique(s)[i]) < FirstIndex(s, Unique(s)[j])
  {
    if |s| > 0 {
      var p := s[..|s| - 1];
      var last := s[|s| - 1];
      UniqueFirstAppearance(p);
      var u := Unique(p);
      var r := Unique(s);
      forall x | x in p
        ensures FirstIndex(s, x) == FirstIndex(p, x)
      {
        var k := FirstIndex(p, x);
        assert s[..k] == p[..k];
        FirstIndexUnique(s, x, k);
      }
      if last !in u {
        assert last !in s[..|s| - 1];
        FirstIndexUnique(s, last, |s| - 1);
        forall i, j | 0 <= i < j < |r|
          ensures FirstIndex(s, r[i]) < FirstIndex(s, r[j])
        {
          if j < |u| {
            assert r[i] == u[i] && r[j] == u[j];
          } else {
            assert r[i] == u[i] && r[i] in p;
            assert FirstIndex(p, r[i]) < |p|;
          }
        }
      } else {
        forall i, j | 0 <= i < j < |r|
          ensures FirstIndex(s, r[i]) < FirstIndex(s, r[j])
        {
          assert r[i] in p && r[j] in p;
        }
      }
    }
  }

  /** `Unique` returns a duplicate-free sequence unchanged. */
  lemma {:induction false} UniqueOfNoDup<T>(s: seq<T>)
    requires NoDup(s)
    ensures Unique(s) == s
  {
    if |s| > 0 {
      var p := s[..|s| - 1];
      assert NoDup(p);
      UniqueOfNoDup(p);
      assert s[|s| - 1] !in p;
      assert s == p + [s[|s| - 1]];
    }
  }
}

=== FILE: sorting.dfy ===
/** Python's `sorted()` on a list of strings: code-point lexicographic order,
    a proper prefix before its extensions. */
module Sorting {

  import opened Seqs

  /** Python's `a < b` on strings. */
  predicate LexLess(a: string, b: string) {
    if |a| == 0 then |b| > 0
    else if |b| == 0 then false
    else if a[0] != b[0] then a[0] < b[0]
    else LexLess(a[1..], b[1..])
  }

  /** Python's `a <= b` on strings. */
  predicate LexLessEq(a: string, b: string) {
    a == b || LexLess(a, b)
  }

  lemma {:induction false} LexLessIrreflexive(a: string)
    ensures !LexLess(a, a)
  {
    if |a| > 0 {
      LexLessIrreflexive(a[1..]);
    }
  }

  lemma {:induction false} LexLessAsymmetric(a: string, b: string)
    ensures !(LexLess(a, b) && LexLess(b, a))
  {
    if |a| > 0 && |b| > 0 && a[0] == b[0] {
      LexLessAsymmetric(a[1..], b[1..]);
    }
  }

  lemma {:induction false} LexLessTransitive(a: string, b: string, c: string)
    requires LexLess(a, b) && LexLess(b, c)
    ensures LexLess(a, c)
  {
    if |a| > 0 && a[0] == b[0] && b[0] == c[0] {
      LexLessTransitive(a[1..], b[1..], c[1..]);
    }
  }

  /** Any two different strings are ordered one way or the other. */
  lemma {:induction false} LexLessTotal(a: string, b: string)
    requires a != b
    ensures LexLess(a, b) || LexLess(b, a)
  {
    if |a| > 0 && |b| > 0 && a[0] == b[0] {
      assert a == [a[0]] + a[1..] && b == [b[0]] + b[1..];
      LexLessTotal(a[1..], b[1..]);
    }
  }

  lemma LexLessEqTransitive(a: string, b: string, c: string)
    requires LexLessEq(a, b) && LexLessEq(b, c)
    ensures LexLessEq(a, c)
  {
    if a != b && b != c {
      LexLessTransitive(a, b, c);
    }
  }

  /** Non-decreasing in Python's order. */
  predicate Sorted(s: seq<string>) {
    forall i, j :: 0 <= i < j < |s| ==> LexLessEq(s[i], s[j])
  }

  /** Strictly increasing in Python's order. */
  predicate StrictlySorted(s: seq<string>) {
    forall i, j :: 0 <= i < j < |s| ==> LexLess(s[i], s[j])
  }

  /** `x` placed into sorted `s` before the first element not below it. */
  function Insert(x: string, s: seq<string>): (r: seq<string>)
    requires Sorted(s)
    ensures multiset(r) == multiset(s) + multiset{x}
    ensures Sorted(r)
  {
    if |s| == 0 then [x]
    else if LexLessEq(x, s[0]) then
      InsertFront(x, s);
      [x] + s
    else
      var rest := Insert(x, s[1..]);
      LexLessTotal(x, s[0]);
      InsertBehind(x, s, rest);
      assert s == [s[0]] + s[1..];
      [s[0]] + rest
  }

  lemma InsertFront(x: string, s: seq<string>)
    requires Sorted(s) && |s| > 0 && LexLessEq(x, s[0])
    ensures Sorted([x] + s)
  {
    var r := [x] + s;
    forall i, j | 0 <= i < j < |r|
      ensures LexLessEq(r[i], r[j])
    {
      assert r[j] == s[j - 1];
      if i == 0 {
        LexLessEqTransitive(x, s[0], s[j - 1]);
      } else {
        assert r[i] == s[i - 1];
      }
    }
  }

  lemma InsertBehind(x: string, s: seq<string>, rest: seq<string>)
    requires Sorted(s) && |s| > 0 && LexLess(s[0], x)
    requires multiset(rest) == multiset(s[1..]) + multiset{x} && Sorted(rest)
    ensures Sorted([s[0]] + rest)
  {
    forall k | 0 <= k < |rest|
      ensures LexLessEq(s[0], rest[k])
    {
      assert rest[k] in multiset(rest);
      if rest[k] != x {
        assert rest[k] in multiset(s[1..]);
        var j :| 0 <= j < |s[1..]| && s[1..][j] == rest[k];
        assert s[j + 1] == rest[k];
      }
    }
  }

  /** Insertion sort: `sorted(s)`. */
  function Sort(s: seq<string>): (r: seq<string>)
    ensures multiset(r) == multiset(s)
    ensures Sorted(r)
  {
    if |s| == 0 then []
    else
      assert s == s[..|s| - 1] + [s[|s| - 1]];
      Insert(s[|s| - 1], Sort(s[..|s| - 1]))
  }

  /** A sorted list without duplicates is strictly increasing. */
  lemma SortedDistinctStrict(s: seq<string>)
    requires Sorted(s)
    requires NoDup(s)
    ensures StrictlySorted(s)
  {
  }

  /** Sorting a list of distinct strings keeps them distinct, so the result
      is strictly increasing. */
  lemma {:induction false} SortDistinct(s: seq<string>)
    requires NoDup(s)
    ensures StrictlySorted(Sort(s))
    ensures |Sort(s)| == |s|
  {
    var r := Sort(s);
    assert |r| == |multiset(r)| == |multiset(s)| == |s|;
    forall i, j | 0 <= i < j < |r|
      ensures r[i] != r[j]
    {
      if r[i] == r[j] {
        DuplicateCount(r, i, j);
        assert multiset(s)[r[i]] >= 2;
        DistinctCount(s, r[i]);
      }
    }
    SortedDistinctStrict(r);
  }

  /** Two equal entries make the value occur at least twice. */
  lemma {:induction false} DuplicateCount(r: seq<string>, i: nat, j: nat)
    requires i < j < |r| && r[i] == r[j]
    ensures multiset(r)[r[i]] >= 2
  {
    assert r == r[..i] + [r[i]] + r[i + 1..j] + [r[j]] + r[j + 1..];
  }

  /** In a list without duplicates every value occurs at most once. */
  lemma {:induction false} DistinctCount(s: seq<string>, x: string)
    requires NoDup(s)
    ensures multiset(s)[x] <= 1
  {
    if |s| > 0 {
      var p := s[..|s| - 1];
      DistinctCount(p, x);
      assert s == p + [s[|s| - 1]];
      if s[|s| - 1] == x {
        assert x !in p;
      }
    }
  }
}

=== FILE: tables.dfy ===
/** The data model: the rows of the spreadsheet extracts the dashboard reads,
    and the errors that pandas raises on them. */
module Tables {

  import opened Wrappers

  /** The exceptions of the core that the model keeps. */
  datatype Error =
    | MissingColumn(name: string)     // pandas `KeyError` on an absent column
    | NoDefinition(title: string)     // `.iloc[0]` on an empty definition lookup
    | UnorderableCodes                // `sorted` comparing a null with a text code
    | MissingStateKey(name: string)   // reading a session-state entry that was never set

  /** A row of a per-bucket metric sheet: its product code, its time-bucket
      label (expiry, activity or ESD month) and its numeric cells. A column
      absent from `values` is a NaN cell, which pandas' `sum` skips. */
  datatype MetricRow = MetricRow(product: string, bucket: string, values: map<string, real>)

  /** A per-bucket metric sheet: the name of its bucket column, the names of
      its numeric columns, and its rows. */
  datatype MetricTable = MetricTable(bucketColumn: string, columns: set<string>, rows: seq<MetricRow>)

  /** Cell `c` of `r` as a number, NaN counting 0 as it does under `sum`. */
  function ValueAt(r: MetricRow, c: string): real {
    if c in r.values then r.values[c] else 0.0
  }

  /** A KPI sheet cell as `pd.to_numeric(..., errors='coerce')` reads it: an
      integer, a float, or something that does not parse (a blank, "N/A"),
      which becomes NaN. */
  datatype Cell = IntCell(i: int) | FloatCell(x: real) | NonNumeric

  /** A row of a KPI sheet: product code, the `Parameter` label and cells. */
  datatype KpiRow = KpiRow(product: string, parameter: string, cells: map<string, Cell>)

  /** A KPI sheet: its column names and rows. */
  datatype KpiTable = KpiTable(columns: set<string>, rows: seq<KpiRow>)

  /** Cell `c` of `r`; a cell the row does not hold is NaN. */
  function CellAt(r: KpiRow, c: string): Cell {
    if c in r.cells then r.cells[c] else NonNumeric
  }

  /** The first of `wanted` that `columns` lacks, in order, if any. */
  function FirstMissing(columns: set<string>, wanted: seq<string>): (r: Option<string>)
    ensures r.None? <==> forall i :: 0 <= i < |wanted| ==> wanted[i] in columns
    ensures r.Some? ==> r.value in wanted && r.value !in columns
  {
    if |wanted| == 0 then None
    else if wanted[0] !in columns then Some(wanted[0])
    else FirstMissing(columns, wanted[1..])
  }
}

=== FILE: text.dfy ===
/** Text helpers: Python's `str(n)` for integers, `sep.join(...)`, and
    `s.split(sep)[-1]`. */
module Text {

  predicate IsDigit(c: char) {
    '0' <= c <= '9'
  }

  predicate AllDigits(s: string) {
    forall i :: 0 <= i < |s| ==> IsDigit(s[i])
  }

  function DigitChar(d: nat): (c: char)
    requires d < 10
    ensures IsDigit(c)
    ensures (c as int) - ('0' as int) == d
  {
    "0123456789"[d]
  }

  function DigitValue(c: char): nat
    requires IsDigit(c)
  {
    (c as int) - ('0' as int)
  }

  /** Python `str(n)` for a non-negative integer: decimal digits, no leading zeros. */
  function NatToString(n: nat): (s: string)
    ensures |s| >= 1 && AllDigits(s)
    ensures |s| > 1 ==> s[0] != '0'
  {
    if n < 10 then [DigitChar(n)] else NatToString(n / 10) + [DigitChar(n % 10)]
  }

  /** The value of a string of decimal digits. */
  function ParseDigits(s: string): nat
    requires AllDigits(s)
  {
    if |s| == 0 then 0 else ParseDigits(s[..|s| - 1]) * 10 + DigitValue(s[|s| - 1])
  }

  /** Reading back the digits of `n` gives `n`. */
  lemma {:induction false} ParseNatToString(n: nat)
    ensures ParseDigits(NatToString(n)) == n
  {
    if n >= 10 {
      ParseNatToString(n / 10);
      var s := NatToString(n);
      assert s[..|s| - 1] == NatToString(n / 10);
    }
  }

  /** Distinct numbers have distinct decimal texts. */
  lemma NatToStringInjective(a: nat, b: nat)
    ensures NatToString(a) == NatToString(b) <==> a == b
  {
    ParseNatToString(a);
    ParseNatToString(b);
  }

  /** A number between 1000 and 9999 (a calendar year, say) has four digits. */
  lemma FourDigits(n: nat)
    requires 1000 <= n <= 9999
    ensures |NatToString(n)| == 4
  {
    assert |NatToString(n / 1000)| == 1;
    assert |NatToString(n / 100)| == 1 + |NatToString(n / 100 / 10)|;
    assert |NatToString(n / 10)| == 1 + |NatToString(n / 10 / 10)|;
  }

  /** Python `str(i)` for any integer. */
  function IntToString(i: int): (s: string)
    ensures i >= 0 ==> s == NatToString(i)
    ensures i < 0 ==> s == "-" + NatToString(-i)
  {
    if i < 0 then "-" + NatToString(-i) else NatToString(i)
  }

  /** `sep.join(parts)`. */
  function Join(parts: seq<string>, sep: string): string {
    if |parts| == 0 then ""
    else if |parts| == 1 then parts[0]
    else Join(parts[..|parts| - 1], sep) + sep + parts[|parts| - 1]
  }

  /** `a` occurs in `s` starting at offset `k`. */
  predicate OccursAt(a: string, s: string, k: int) {
    0 <= k <= |s| - |a| && s[k..k + |a|] == a
  }

  /** `a` occurs as a contiguous piece of `s`. */
  ghost predicate IsInfix(a: string, s: string) {
    exists k :: OccursAt(a, s, k)
  }

  /** An occurrence stays an occurrence, shifted, inside a longer text. */
  lemma OccursInContext(a: string, s: string, k: int, pre: string, post: string)
    requires OccursAt(a, s, k)
    ensures OccursAt(a, pre + s + post, |pre| + k)
  {
    var t := pre + s + post;
    forall m | 0 <= m < |a|
      ensures t[|pre| + k + m] == a[m]
    {
      assert s[k..k + |a|][m] == s[k + m];
    }
    assert t[|pre| + k..|pre| + k + |a|] == a;
  }

  /** Every part of a join occurs in the joined text. */
  lemma {:induction false} JoinContainsParts(parts: seq<string>, sep: string, i: nat)
    requires i < |parts|
    ensures IsInfix(parts[i], Join(parts, sep))
  {
    var j := Join(parts, sep);
    if |parts| == 1 {
      assert OccursAt(parts[0], j, 0);
    } else {
      var front := Join(parts[..|parts| - 1], sep);
      if i == |parts| - 1 {
        var k := |front| + |sep|;
        assert j[k..k + |parts[i]|] == parts[i];
        assert OccursAt(parts[i], j, k);
      } else {
        JoinContainsParts(parts[..|parts| - 1], sep, i);
        var k :| OccursAt(parts[i], front, k);
        assert j[k..k + |parts[i]|] == front[k..k + |parts[i]|];
        assert OccursAt(parts[i], j, k);
      }
    }
  }

  /** Python `s.split(sep)[-1]`: the text after the last `sep`, or all of `s`
      when it holds none. */
  function LastSegment(s: string, sep: char): (r: string)
    ensures |r| <= |s| && r == s[|s| - |r|..]
    ensures sep !in r
    ensures |r| == |s| || s[|s| - |r| - 1] == sep
  {
    if |s| == 0 then ""
    else if s[|s| - 1] == sep then ""
    else LastSegment(s[..|s| - 1], sep) + [s[|s| - 1]]
  }

  /** The segment after a separator is recovered when it holds no separator. */
  lemma {:induction false} LastSegmentAfter(p: string, sep: char, t: string)
    requires sep !in t
    ensures LastSegment(p + [sep] + t, sep) == t
  {
    if |t| > 0 {
      var s := p + [sep] + t;
      var t' := t[..|t| - 1];
      LastSegmentAfter(p, sep, t');
      assert s[..|s| - 1] == p + [sep] + t';
      assert t == t' + [t[|t| - 1]];
    } else {
      assert (p + [sep] + t)[|p|] == sep;
    }
  }
}

=== FILE: wrappers.dfy ===
/** Failure-compatible wrappers used across the model: `Option` for the
    source's `None` results and `Result` for the exceptions it raises. */
module Wrappers {

  datatype Option<+T> = None | Some(value: T) {

    /** The value held in `Some`, or `default` for `None`. */
    function GetOr(default: T): T {
      match this
      case Some(v) => v
      case None => default
    }
  }

  datatype Result<+R, +E> = Success(value: R) | Failure(error: E)
}
